=== FILE: README.md ===
# PDF Adjective Extractor — a Dafny model of its text pipeline

The PDF Adjective Extractor is a small batch program. It asks for the path of a
PDF and checks that the file exists. It then extracts the text, cleans it, has
a part-of-speech tagger tag it, keeps the adjectives, analyses how often each
occurs, prints a short summary and writes a report file.

This project models the logic around the two foreign libraries, the PDF
reader and the tagger, as pure Dafny functions, and proves what that logic
promises. Four pieces are modelled:

- **`clean_text`** (module `Normalizer`). It collapses whitespace runs and
  blanks out every character outside `[\w\s.,;:!?-]`, then strips both ends.
- **`extract_adjectives` and `analyze_adjectives`** (module `Analyzer`).
  - The filter keeps the lower-cased `JJ`/`JJR`/`JJS` words.
  - The analysis computes the two totals, `Counter.most_common(20)` and
    `sorted(set(...))`.
- **The text `save_results` writes** (module `Report`), as a function of the
  adjective list. Readers of that text show what it encodes: the totals and
  the top-20 list read back from the report. The five-column grid is shown
  to read back on its own: its words come back when it is split at spaces
  and line breaks.
- **`main`** (module `Pipeline`): the path prompt and its default, the early
  exits, the order of the stages, the output file name and the ten-entry
  console summary. File existence, the PDF reader and the tagger are function
  parameters.

Three shared modules support these:

- `Strings` holds Python's whitespace set, the ASCII part of `\w`,
  `str.lower`, `format` padding, `str(n)`, `str.strip` and Python's string
  order.
- `Sequences` holds distinctness, `s[:n]` and an insertion sort for any
  strict total order.
- `Wrappers` holds `Option`.

Python semantics are written out where they matter:

- `\s` and `str.strip()` use the full list of code points `str.isspace`
  accepts.
- Alignment pads but never truncates.
- `most_common` is a stable sort by descending count over the `Counter`'s
  first-insertion order. It is modelled as a sort by "higher count, or equal
  count and earlier first occurrence", which orders the same keys the same
  way.
- `save_results` on an empty list writes the three header lines. It then
  fails at `analysis['total_count']` with a `KeyError`, because
  `analyze_adjectives` returned `{}`. `SaveResults` returns
  `KeyErrorAfter(Header())` for that case.

Three behaviours of the code differ from what a reader of the report might
expect, and the model follows the code:

- A top-20 word longer than 20 characters is not truncated (`{word:20}` only
  pads).
- The grid writes no line break after a last row that is not full.
- A cleaned text can hold two spaces in a row. The second substitution blanks
  out characters after whitespace has already been collapsed, so `"x@@y"`
  cleans to `"x  y"` (`Normalizer.CleanTextKeepsNewRuns`).

## Model

| member | source | states |
|---|---|---|
| `Strings.Strip` | src/pdf_extractor.py:66 | `str.strip()` removes whitespace at the two ends only: the result is a contiguous slice of the input with nothing but whitespace before and after it, and it neither starts nor ends with whitespace |
| `Strings.StripKeepsRuns` | src/pdf_extractor.py:66 | stripping changes no run of characters that are never whitespace, so `str.split()` of the result is that of the input |
| `Strings.TrimLeftOfSpaces` | src/pdf_extractor.py:66 | stripping the front of whitespace followed by a non-whitespace start leaves exactly that rest |
| `Normalizer.CollapseWhitespace` | src/pdf_extractor.py:62 | `re.sub(r'\s+', ' ', ...)`: empty exactly for empty input; the first character is kept, or is `' '` when it is whitespace; the only whitespace left is `' '` and never two in a row; the non-whitespace characters are those of the input, in order; no longer than the input |
| `Normalizer.CollapseWhitespaceWords` | src/pdf_extractor.py:62 | collapsing keeps the words: `str.split()` of the result equals that of the input, and the result ends in whitespace exactly when the input does. Together with the contract above: every whitespace run becomes exactly one space, and no two words are fused |
| `Normalizer.CollapseKeepsRuns` | src/pdf_extractor.py:62 | every maximal run of characters that are never whitespace survives collapsing unchanged and in order |
| `Normalizer.ReplaceDisallowed` | src/pdf_extractor.py:64 | the second substitution keeps the length and every allowed character, and puts `' '` in place of every other one |
| `Normalizer.ReplaceKeepsVisible` | src/pdf_extractor.py:64 | after the substitution, the non-whitespace characters are exactly the allowed non-whitespace characters of its input, in order |
| `Normalizer.ReplaceKeepsRuns` | src/pdf_extractor.py:64 | after the substitution, the words (`str.split()`) are exactly the maximal runs of allowed non-whitespace characters of its input |
| `Normalizer.CleanText` | src/pdf_extractor.py:58-66 | `None` and `""` give `""`; the result is no longer than the input; it holds only word characters, `' '` and `.,;:!?-`; its only whitespace is `' '`; it has no whitespace at either end; its non-space characters are exactly the allowed non-whitespace input characters, in order |
| `Normalizer.CleanTextWords` | src/pdf_extractor.py:58-66 | the words of the cleaned text (`str.split()`) are exactly the maximal runs of allowed non-whitespace characters of the input: every other character ends a word, and no two words are fused |
| `Normalizer.CleanTextFixesNormalText` | src/pdf_extractor.py:58-66 | text already made of clean characters, with single spaces only and no space at either end, is returned unchanged |
| `Normalizer.CleanTextCollapsesRuns` | src/pdf_extractor.py:62-66 | a run of tab, line break and space between two word characters becomes one space |
| `Normalizer.CleanTextKeepsNewRuns` | src/pdf_extractor.py:62-66 | two disallowed characters between word characters become two spaces, which are not collapsed again |
| `Strings.Repeat` | src/text_analyzer.py:80-82 | `c * n` (also at lines 88, 92, 94, 101 and 103): exactly `n` characters, each of them `c`, so the report opens with a banner of 60 `=` and its rules are 40 `-` |
| `Strings.AlignLeft` | src/text_analyzer.py:99 | `{adj:20}` (also `{word:20}` at line 90 and line 108): the length is `max(len(s), 20)`, `s` is kept whole at the front, and the padding after it is spaces, so nothing is truncated |
| `Strings.AlignRight` | src/text_analyzer.py:90 | `{count:3}`: the length is `max(len(s), 3)`, `s` is kept whole at the end, and the padding before it is spaces |
| `Strings.NatToString` | src/text_analyzer.py:84-85 | `str(n)` in the f-strings (also the count at line 90): a non-empty string of decimal digits that starts with `0` only for `0` itself, which is then the whole string |
| `Sequences.Take` | main.py:56 | `most_common[:10]`: the first `min(10, len)` elements, a prefix of the list |
| `Strings.Lower` | src/text_analyzer.py:40 | `str.lower` maps every character by itself, keeps the length and leaves no upper-case letter |
| `Analyzer.FilterAdjectives` | src/text_analyzer.py:39-42 | the comprehension keeps at most one word per token, and every word it keeps is lower-case |
| `Analyzer.FilterAdjectivesSingle` | src/text_analyzer.py:39-42 | on one token it keeps the lower-cased word exactly when the tag is `JJ`, `JJR` or `JJS` |
| `Analyzer.FilterAdjectivesAppend` | src/text_analyzer.py:39-42 | filtering a concatenation concatenates the filtered parts, so input order and duplicates are kept |
| `Analyzer.FilterAdjectivesWords` | src/text_analyzer.py:39-42 | the kept words are exactly the lower-cased words of the adjective-tagged tokens |
| `Analyzer.FilterAdjectivesNone` | src/text_analyzer.py:39-42 | with no adjective tag in the input, nothing is kept |
| `Analyzer.ExtractAdjectives` | src/text_analyzer.py:31-42 | empty text gives `[]`; otherwise at most one lower-case word per tagged token |
| `Analyzer.FirstIndex` | src/text_analyzer.py:59 | the position where a word first occurs, or the length when it does not occur |
| `Analyzer.CounterKeys` | src/text_analyzer.py:59 | the `Counter`'s keys: each word of the input once, in order of first occurrence |
| `Analyzer.Ranking` | src/text_analyzer.py:64 | every distinct word once, ordered by descending count with ties broken by first occurrence |
| `Analyzer.MostCommon` | src/text_analyzer.py:64 | `most_common(n)` has `min(n, distinct words)` entries with distinct words; each count is that word's number of occurrences; counts do not increase; equal counts keep first-occurrence order; no omitted word occurs more often than an included one, or as often while appearing earlier; the counts sum to at most the list length |
| `Analyzer.MostCommonPrefix` | src/text_analyzer.py:64 | the first `m` entries of `most_common(n)` are `most_common(m)` for every `m <= n` |
| `Analyzer.CountsWithinTotal` | src/text_analyzer.py:64 | entries with distinct words and their true counts sum to at most the length of the list |
| `Analyzer.SortedUnique` | src/text_analyzer.py:66 | `sorted(set(...))` is strictly ascending in Python's string order and holds exactly the words of the input |
| `Analyzer.Analyze` | src/text_analyzer.py:56-67 | the empty list gives the empty analysis; otherwise `total_count` is the length, `unique_count` the number of distinct words and no more than the total, `all_adjectives` the input, `most_common` exactly `MostCommon(adjectives, 20)`, so that member's contract carries over (at most 20 entries whose counts sum to at most the total), and `unique_adjectives` strictly ascending with exactly the input's words |
| `Analyzer.AnalysisExample` | src/text_analyzer.py:62-66 | for `g t g` with `g != t`: total 3, two distinct, listed in string order, and `most_common` is `(g, 2), (t, 1)` |
| `Strings.LessTotal` | src/text_analyzer.py:66 | two different strings are ordered one way or the other |
| `Strings.LessTransitive` | src/text_analyzer.py:66 | Python's string order is transitive |
| `Sequences.Sort` | src/text_analyzer.py:64-66 | sorting a duplicate-free sequence by a strict total order gives a permutation of it in that order |
| `Sequences.SortPermutes` | src/text_analyzer.py:64-66 | the sorted sequence has the same length and members as its input and no duplicates |
| `Strings.ParseNatToString` | src/text_analyzer.py:84-85 | reading the decimal digits of `str(n)` gives back `n` |
| `Report.SaveResults` | src/text_analyzer.py:77-108 | the report fails with a `KeyError` exactly for the empty list, after writing only the header; otherwise the text starts with the header |
| `Report.Cell` | src/text_analyzer.py:95-99 | grid word `i` comes first in its cell; after it comes a line break when `i % 5 == 0`; otherwise spaces pad it to `max(len, 20)`, so nothing is cut |
| `Report.GridNewlines` | src/text_analyzer.py:92-99 | a grid of `n` words without line breaks holds exactly `n // 5` line breaks |
| `Report.GridTokens` | src/text_analyzer.py:101-108 | splitting the grid at spaces and line breaks gives back the words, in order, when every word is non-empty, has no space or line break and is shorter than the 20-character column |
| `Report.TopLineRoundTrip` | src/text_analyzer.py:89-90 | a top-20 line of a word without spaces or line breaks reads back as that word and count |
| `Report.TopLinesRoundTrip` | src/text_analyzer.py:87-90 | the top-20 section reads back as the list it was written from, when no word has a space or line break and the text after the section is empty or starts with a line break |
| `Report.ParseCountRoundTrip` | src/text_analyzer.py:84-85 | a caption followed by `str(n)` reads back as `n`, when the text after the digits is empty or starts with a non-digit |
| `Report.ReportSummaryRoundTrip` | src/text_analyzer.py:80-90 | a report for a non-empty list of words without spaces or line breaks reads back as its length, its number of distinct words and `most_common(20)` |
| `Pipeline.ResolvePath` | main.py:17-19 | the path is never empty and has no whitespace at either end; an all-whitespace answer gives `data/Nepal.pdf`; any other answer gives the answer with the whitespace at its two ends removed, so inner spaces stay |
| `Pipeline.Basename` | main.py:61 | `os.path.basename` is the longest suffix without `/` |
| `Pipeline.Stem` | main.py:61 | `split('.')[0]` is the longest prefix without `.` |
| `Pipeline.OutputPath` | main.py:61 | the report file is `output/adjectives_<name>.txt`, where `<name>` is the longest prefix of the base name of the PDF path without `.`: it has no `/` or `.`, begins the base name, and is followed there by `.` unless it is the whole base name |
| `Pipeline.OutputPathOf` | main.py:61 | `dir/stem.ext` is reported in `output/adjectives_stem.txt` for every directory and extension |
| `Pipeline.Run` | main.py:17-67 | the stages run are always a prefix of extract, clean, tag, analyse, save; a missing file stops before any stage; a false extraction result stops after extracting; no adjectives stops after tagging; the report is saved exactly on success, to `OutputPath(path)`, after all five stages |
| `Pipeline.CompletedRun` | main.py:45-62 | on success the console shows the list's length, its number of distinct words and exactly `most_common(10)`: the first ten entries of `most_common(20)`, or all of them when there are fewer distinct words. The saved report is the `save_results` text of the same list |
| `Pipeline.ConsoleAgreesWithReport` | main.py:51-62 | when the tagger yields no word with a space or line break, the saved report reads back as the totals and the list the console summary was cut from |

## Left out

- Importing the PDF library and extracting the text (src/pdf_extractor.py:8-46) are not modelled: they call a foreign library and read a binary file. The extraction result is the `extract` parameter of `Pipeline.Run`.
- NLTK setup, download, tokenisation and tagging (src/text_analyzer.py:11-19, 35-36) are not modelled: they call a foreign library, and the data download at lines 17-19 goes over the network. The tagged sequence is the `tagger` parameter.
- The `ImportError` raised when neither PDF library is installed (src/pdf_extractor.py:20, reached at line 32, outside the `try`) is not modelled: it escapes `main` as a crash, and no `Run` outcome represents it. `Run` assumes a PDF library is present.
- Not modelled because they are I/O: `print`, `input()`, `os.path.exists`, `os.makedirs` and the file writes in main.py and src/text_analyzer.py. The answer to the prompt and the existence test are parameters; the report is the string that would be written.
- The console lines `main` prints (main.py:48-57, 64-69) are not rendered. The model returns the values they show: the two totals and the ten-entry slice.
- `Pipeline.Basename`: follows POSIX `os.path.basename`, where only `/` separates directories. On Windows a `\` would also separate them.
- `Strings.IsWordChar`: covers only the ASCII part of `\w`. Python's `\w` on a `str` also matches non-ASCII letters and digits, which would survive cleaning.
- `Strings.Lower`: lower-cases only ASCII letters. Python's `str.lower` also maps non-ASCII letters.
- `Report.GridTokens`: requires non-empty words with no space or line break, shorter than 20 characters. A longer word fills its cell with no space after it and runs into the next word; an empty word or one with a space or line break cannot be told apart once split.
- `Report.TopLinesRoundTrip`: requires words without spaces or line breaks, and a section followed by nothing or a line break. `TopLine("ab ", 1)` and `TopLine("ab", 1)` are the same text.
- `Report.ParseCountRoundTrip`: requires that a non-digit or the end follows the digits, since further digits would be read as part of the number.
- `Report.ReportSummaryRoundTrip`: requires words without spaces or line breaks. The reader splits the top-20 line at the first space.
- `Pipeline.ConsoleAgreesWithReport`: carries the same requirement on the tagger's words, for the same reason.
- `Analyzer.FilterAdjectives`: its contract states only the bound and lower-casing. Its content and order are stated by `Analyzer.FilterAdjectivesSingle`, `Analyzer.FilterAdjectivesAppend` and `Analyzer.FilterAdjectivesWords`.
- The "Results saved" message at src/text_analyzer.py:110 is not modelled: it is console output.
- src/__init__.py is not part of this model: it only re-exports names and holds version metadata.

=== FILE: analyzer.dfy ===
/** `TextAnalyzer`: keeping the adjectives of a tagged text and the
    frequency analysis `analyze_adjectives` builds on `collections.Counter`. */
module Analyzer {
  import opened Wrappers
  import opened Strings
  import opened Sequences

  /** One `(word, tag)` pair of the part-of-speech tagger's output. */
  datatype TaggedToken = TaggedToken(word: string, tag: string)

  /** The adjective tags: base, comparative, superlative. Case-sensitive. */
  predicate IsAdjectiveTag(tag: string) {
    tag == "JJ" || tag == "JJR" || tag == "JJS"
  }

  /** The list comprehension of `extract_adjectives`: the lower-cased words of
      the adjective-tagged tokens, in order, duplicates kept. */
  function FilterAdjectives(tagged: seq<TaggedToken>): (r: seq<string>)
    ensures |r| <= |tagged|
    ensures forall i | 0 <= i < |r| :: IsLowerCase(r[i])
  {
    if tagged == [] then []
    else
      var head := if IsAdjectiveTag(tagged[0].tag) then [Lower(tagged[0].word)] else [];
      head + FilterAdjectives(tagged[1..])
  }

  /** The lower-cased words of the adjective-tagged tokens, as a set. */
  function AdjectiveWords(tagged: seq<TaggedToken>): set<string> {
    set j | 0 <= j < |tagged| && IsAdjectiveTag(tagged[j].tag) :: Lower(tagged[j].word)
  }

  lemma AdjectiveWordsStep(tagged: seq<TaggedToken>)
    requires tagged != []
    ensures AdjectiveWords(tagged)
      == (if IsAdjectiveTag(tagged[0].tag) then {Lower(tagged[0].word)} else {})
         + AdjectiveWords(tagged[1..])
  {
    var rest := tagged[1..];
    assert forall j | 0 <= j < |rest| :: rest[j] == tagged[j + 1];
    forall w | w in AdjectiveWords(tagged)
      ensures w in (if IsAdjectiveTag(tagged[0].tag) then {Lower(tagged[0].word)} else {}) + AdjectiveWords(rest)
    {
      var j :| 0 <= j < |tagged| && IsAdjectiveTag(tagged[j].tag) && w == Lower(tagged[j].word);
      if j > 0 {
        assert rest[j - 1] == tagged[j];
      }
    }
  }

  /** The kept words are exactly the lower-cased words of the
      adjective-tagged tokens: nothing else is kept and none is lost. */
  lemma {:induction false} FilterAdjectivesWords(tagged: seq<TaggedToken>)
    ensures Elements(FilterAdjectives(tagged)) == AdjectiveWords(tagged)
  {
    if tagged != [] {
      FilterAdjectivesWords(tagged[1..]);
      AdjectiveWordsStep(tagged);
      var head := if IsAdjectiveTag(tagged[0].tag) then [Lower(tagged[0].word)] else [];
      var rest := FilterAdjectives(tagged[1..]);
      assert FilterAdjectives(tagged) == head + rest;
      assert Elements(head + rest) == Elements(head) + Elements(rest);
    }
  }

  /** Without adjective tags nothing is kept. */
  lemma {:induction false} FilterAdjectivesNone(tagged: seq<TaggedToken>)
    requires forall j | 0 <= j < |tagged| :: !IsAdjectiveTag(tagged[j].tag)
    ensures FilterAdjectives(tagged) == []
  {
    if tagged != [] {
      assert forall j | 0 <= j < |tagged[1..]| :: tagged[1..][j] == tagged[j + 1];
      FilterAdjectivesNone(tagged[1..]);
    }
  }

  /** The filter works token by token: filtering a concatenation is
      concatenating the filtered parts, so input order is kept. */
  lemma {:induction false} FilterAdjectivesAppend(a: seq<TaggedToken>, b: seq<TaggedToken>)
    ensures FilterAdjectives(a + b) == FilterAdjectives(a) + FilterAdjectives(b)
  {
    if a == [] {
      assert a + b == b;
    } else {
      assert (a + b)[0] == a[0];
      assert (a + b)[1..] == a[1..] + b;
      FilterAdjectivesAppend(a[1..], b);
    }
  }

  /** On one token the filter keeps its lower-cased word exactly when the tag
      is an adjective tag; with `FilterAdjectivesAppend` this determines the
      filter on every input. */
  lemma FilterAdjectivesSingle(t: TaggedToken)
    ensures FilterAdjectives([t]) == if IsAdjectiveTag(t.tag) then [Lower(t.word)] else []
  {
    assert [t][1..] == [];
  }

  /** `extract_adjectives(text)`: the empty text gives `[]` without calling
      the tagger; otherwise the tagger's output is filtered. */
  function ExtractAdjectives(text: string, tagger: string -> seq<TaggedToken>): (r: seq<string>)
    ensures text == "" ==> r == []
    ensures text != "" ==> |r| <= |tagger(text)|
    ensures forall i | 0 <= i < |r| :: IsLowerCase(r[i])
  {
    if text == "" then [] else FilterAdjectives(tagger(text))
  }

  /** How often `w` occurs in `xs`: its `Counter` value. */
  function Occurrences(xs: seq<string>, w: string): nat {
    multiset(xs)[w]
  }

  /** The position of the first occurrence of `w` in `xs`, or `|xs|` when it
      does not occur. */
  function FirstIndex(xs: seq<string>, w: string): (r: nat)
    ensures r <= |xs|
    ensures r < |xs| <==> w in xs
    ensures r < |xs| ==> xs[r] == w
    ensures forall k | 0 <= k < r :: xs[k] != w
  {
    if xs == [] then 0
    else if xs[0] == w then 0
    else
      var r := 1 + FirstIndex(xs[1..], w);
      assert forall k | 1 <= k < r :: xs[k] == xs[1..][k - 1];
      r
  }

  /** Extending a sequence does not move the first occurrence of a word it
      already holds. */
  lemma FirstIndexOfExtension(xs: seq<string>, x: string, w: string)
    requires w in xs
    ensures FirstIndex(xs + [x], w) == FirstIndex(xs, w)
  {
    var k := FirstIndex(xs, w);
    var k' := FirstIndex(xs + [x], w);
    assert (xs + [x])[k] == w;
    if k' < k {
      assert xs[k'] == (xs + [x])[k'];
    }
  }

  /** The keys of `Counter(xs)` in dictionary order: each distinct word
      once, in order of first appearance. */
  function CounterKeys(xs: seq<string>): (r: seq<string>)
    ensures Distinct(r)
    ensures forall w :: w in r <==> w in xs
    ensures forall i, j | 0 <= i < j < |r| :: FirstIndex(xs, r[i]) < FirstIndex(xs, r[j])
  {
    if xs == [] then []
    else
      var init := xs[..|xs| - 1];
      var last := xs[|xs| - 1];
      assert xs == init + [last];
      var keys := CounterKeys(init);
      forall w | w in keys
        ensures FirstIndex(xs, w) == FirstIndex(init, w) < |init|
      {
        FirstIndexOfExtension(init, last, w);
      }
      if last in keys then keys
      else
        assert FirstIndex(xs, last) == |init|;
        keys + [last]
  }

  /** The order `most_common` lists words in: more frequent first, and among
      equally frequent words the one that appeared first. */
  predicate Before(xs: seq<string>, a: string, b: string) {
    || Occurrences(xs, a) > Occurrences(xs, b)
    || (Occurrences(xs, a) == Occurrences(xs, b) && FirstIndex(xs, a) < FirstIndex(xs, b))
  }

  function ByFrequency(xs: seq<string>): (string, string) -> bool {
    (a, b) => Before(xs, a, b)
  }

  /** On the words of `xs`, `Before` is a strict total order: two distinct
      words never share a first position. */
  lemma ByFrequencyIsStrictTotal(xs: seq<string>, ws: seq<string>)
    requires forall w | w in ws :: w in xs
    ensures StrictTotalOn(ByFrequency(xs), ws)
  {
    var lt := ByFrequency(xs);
    forall a, b | a in ws && b in ws && a != b
      ensures lt(a, b) || lt(b, a)
    {
      assert xs[FirstIndex(xs, a)] == a && xs[FirstIndex(xs, b)] == b;
    }
  }

  /** All distinct words, most frequent first, ties in order of first
      appearance: `Counter(xs).most_common()`. */
  function Ranking(xs: seq<string>): (r: seq<string>)
    ensures |r| == |Elements(xs)|
    ensures Distinct(r)
    ensures forall w :: w in r <==> w in xs
    ensures SortedBy(ByFrequency(xs), r)
  {
    var keys := CounterKeys(xs);
    ByFrequencyIsStrictTotal(xs, keys);
    SortPermutes(ByFrequency(xs), keys);
    assert Elements(keys) == Elements(xs);
    ElementsCardinality(keys);
    Sort(ByFrequency(xs), keys)
  }

  /** Pairs each word with its count. */
  function Entries(xs: seq<string>, ws: seq<string>): (r: seq<(string, nat)>)
    ensures |r| == |ws|
    ensures forall i | 0 <= i < |r| :: r[i] == (ws[i], Occurrences(xs, ws[i]))
  {
    seq(|ws|, i requires 0 <= i < |ws| => (ws[i], Occurrences(xs, ws[i])))
  }

  function Words(entries: seq<(string, nat)>): (r: seq<string>)
    ensures |r| == |entries|
    ensures forall i | 0 <= i < |r| :: r[i] == entries[i].0
  {
    seq(|entries|, i requires 0 <= i < |entries| => entries[i].0)
  }

  /** The sum of the counts of `entries`. */
  function TotalOf(entries: seq<(string, nat)>): nat {
    if entries == [] then 0 else entries[0].1 + TotalOf(entries[1..])
  }

  /** `xs` without any occurrence of `w`. */
  function RemoveAll(xs: seq<string>, w: string): (r: seq<string>)
    ensures |r| == |xs| - Occurrences(xs, w)
    ensures forall v | v != w :: Occurrences(r, v) == Occurrences(xs, v)
  {
    if xs == [] then []
    else
      var head := if xs[0] == w then [] else [xs[0]];
      var rest := RemoveAll(xs[1..], w);
      RemoveAllStep(xs, w, head, rest);
      head + rest
  }

  lemma RemoveAllStep(xs: seq<string>, w: string, head: seq<string>, rest: seq<string>)
    requires xs != []
    requires head == if xs[0] == w then [] else [xs[0]]
    requires |rest| == |xs[1..]| - Occurrences(xs[1..], w)
    requires forall v | v != w :: Occurrences(rest, v) == Occurrences(xs[1..], v)
    ensures |head + rest| == |xs| - Occurrences(xs, w)
    ensures forall v | v != w :: Occurrences(head + rest, v) == Occurrences(xs, v)
  {
    assert xs == [xs[0]] + xs[1..];
    assert multiset(xs) == multiset{xs[0]} + multiset(xs[1..]);
    assert multiset(head + rest) == multiset(head) + multiset(rest);
    forall v | v != w
      ensures Occurrences(head + rest, v) == Occurrences(xs, v)
    {
      assert multiset(head)[v] == multiset{xs[0]}[v];
      assert Occurrences(rest, v) == Occurrences(xs[1..], v);
      calc {
        Occurrences(head + rest, v);
        multiset(head)[v] + multiset(rest)[v];
        multiset{xs[0]}[v] + multiset(xs[1..])[v];
        Occurrences(xs, v);
      }
    }
  }

  /** Counts of distinct words of `xs` never add up to more than `|xs|`. */
  lemma {:induction false} CountsWithinTotal(xs: seq<string>, es: seq<(string, nat)>)
    requires forall i, j | 0 <= i < j < |es| :: es[i].0 != es[j].0
    requires forall i | 0 <= i < |es| :: es[i].1 == Occurrences(xs, es[i].0)
    ensures TotalOf(es) <= |xs|
    decreases es
  {
    if es != [] {
      var w := es[0].0;
      var rest := RemoveAll(xs, w);
      var tail := es[1..];
      forall i | 0 <= i < |tail|
        ensures tail[i].1 == Occurrences(rest, tail[i].0)
      {
        assert tail[i] == es[i + 1];
      }
      CountsWithinTotal(rest, tail);
    }
  }

  /** `Counter(xs).most_common(n)`: the first `n` words of the ranking with
      their counts. */
  function MostCommon(xs: seq<string>, n: nat): (r: seq<(string, nat)>)
    ensures |r| == if n < |Elements(xs)| then n else |Elements(xs)|
    ensures forall i | 0 <= i < |r| :: r[i].0 in xs && r[i].1 == Occurrences(xs, r[i].0)
    ensures forall i, j | 0 <= i < j < |r| :: r[i].0 != r[j].0
    ensures forall i, j | 0 <= i < j < |r| :: r[i].1 >= r[j].1
    ensures forall i, j | 0 <= i < j < |r| && r[i].1 == r[j].1 ::
      FirstIndex(xs, r[i].0) < FirstIndex(xs, r[j].0)
    ensures forall w, i | w in xs && w !in Words(r) && 0 <= i < |r| ::
      || Occurrences(xs, w) < r[i].1
      || (Occurrences(xs, w) == r[i].1 && FirstIndex(xs, r[i].0) < FirstIndex(xs, w))
    ensures TotalOf(r) <= |xs|
  {
    var r := Entries(xs, Take(Ranking(xs), n));
    TopEntriesCounted(xs, n, r);
    TopEntriesOrdered(xs, n, r);
    TopEntriesCutOff(xs, n, r);
    r
  }

  /** The first `m` entries of `most_common(n)` are `most_common(m)`, for
      every `m <= n`: a longer listing only adds entries at the end. */
  lemma MostCommonPrefix(xs: seq<string>, m: nat, n: nat)
    requires m <= n
    ensures Take(MostCommon(xs, n), m) == MostCommon(xs, m)
  {
    var ranked := Ranking(xs);
    var a := Take(MostCommon(xs, n), m);
    var b := MostCommon(xs, m);
    assert MostCommon(xs, n) == Entries(xs, Take(ranked, n));
    assert b == Entries(xs, Take(ranked, m));
    assert |a| == |b|;
    forall i | 0 <= i < |a|
      ensures a[i] == b[i]
    {
      assert Take(ranked, m)[i] == Take(ranked, n)[i];
    }
  }

  lemma TopEntriesCounted(xs: seq<string>, n: nat, r: seq<(string, nat)>)
    requires r == Entries(xs, Take(Ranking(xs), n))
    ensures |r| == if n < |Elements(xs)| then n else |Elements(xs)|
    ensures forall i | 0 <= i < |r| :: r[i].0 in xs && r[i].1 == Occurrences(xs, r[i].0)
    ensures forall i, j | 0 <= i < j < |r| :: r[i].0 != r[j].0
    ensures TotalOf(r) <= |xs|
  {
    var ranked := Ranking(xs);
    forall i | 0 <= i < |r|
      ensures r[i].0 in xs
    {
      assert r[i].0 == ranked[i];
    }
    CountsWithinTotal(xs, r);
  }

  lemma TopEntriesOrdered(xs: seq<string>, n: nat, r: seq<(string, nat)>)
    requires r == Entries(xs, Take(Ranking(xs), n))
    ensures forall i, j | 0 <= i < j < |r| :: r[i].1 >= r[j].1
    ensures forall i, j | 0 <= i < j < |r| && r[i].1 == r[j].1 ::
      FirstIndex(xs, r[i].0) < FirstIndex(xs, r[j].0)
  {
    var ranked := Ranking(xs);
    RankingOrder(xs, ranked, Take(ranked, n), r);
  }

  lemma TopEntriesCutOff(xs: seq<string>, n: nat, r: seq<(string, nat)>)
    requires r == Entries(xs, Take(Ranking(xs), n))
    ensures forall w, i | w in xs && w !in Words(r) && 0 <= i < |r| ::
      || Occurrences(xs, w) < r[i].1
      || (Occurrences(xs, w) == r[i].1 && FirstIndex(xs, r[i].0) < FirstIndex(xs, w))
  {
    var ranked := Ranking(xs);
    var top := Take(ranked, n);
    assert Words(r) == top;
    RankingCutOff(xs, ranked, top, r);
  }

  /** Consecutive entries of a prefix of the ranking respect `Before`. */
  lemma RankingOrder(xs: seq<string>, ranked: seq<string>, top: seq<string>, r: seq<(string, nat)>)
    requires SortedBy(ByFrequency(xs), ranked)
    requires top <= ranked
    requires r == Entries(xs, top)
    ensures forall i, j | 0 <= i < j < |r| :: Before(xs, r[i].0, r[j].0)
  {
    forall i, j | 0 <= i < j < |r|
      ensures Before(xs, r[i].0, r[j].0)
    {
      assert r[i].0 == ranked[i] && r[j].0 == ranked[j];
      assert ByFrequency(xs)(ranked[i], ranked[j]);
    }
  }

  /** A word the prefix leaves out comes after every word it keeps. */
  lemma RankingCutOff(xs: seq<string>, ranked: seq<string>, top: seq<string>, r: seq<(string, nat)>)
    requires SortedBy(ByFrequency(xs), ranked)
    requires forall w :: w in ranked <==> w in xs
    requires top <= ranked
    requires r == Entries(xs, top)
    ensures forall w, i | w in xs && w !in top && 0 <= i < |r| :: Before(xs, r[i].0, w)
  {
    forall w, i | w in xs && w !in top && 0 <= i < |r|
      ensures Before(xs, r[i].0, w)
    {
      var k :| 0 <= k < |ranked| && ranked[k] == w;
      assert r[i].0 == ranked[i];
      assert ByFrequency(xs)(ranked[i], ranked[k]);
    }
  }

  /** What `analyze_adjectives` returns for a non-empty list. */
  datatype Analysis = Analysis(
    totalCount: nat,
    uniqueCount: nat,
    mostCommon: seq<(string, nat)>,
    allAdjectives: seq<string>,
    uniqueAdjectives: seq<string>)

  /** The size of `most_common` in the analysis. */
  const TopCount: nat := 20

  /** Python's `<` on strings is a strict total order. */
  lemma LessIsStrictTotal(ws: seq<string>)
    ensures StrictTotalOn(Less, ws)
  {
    forall a | a in ws
      ensures !Less(a, a)
    {
      LessIrreflexive(a);
    }
    forall a, b, c | a in ws && b in ws && c in ws && Less(a, b) && Less(b, c)
      ensures Less(a, c)
    {
      LessTransitive(a, b, c);
    }
    forall a, b | a in ws && b in ws && a != b
      ensures Less(a, b) || Less(b, a)
    {
      LessTotal(a, b);
    }
  }

  /** `sorted(set(xs))`: the distinct words, strictly ascending. */
  function SortedUnique(xs: seq<string>): (r: seq<string>)
    ensures |r| == |Elements(xs)|
    ensures forall w :: w in r <==> w in xs
    ensures SortedBy(Less, r)
  {
    var keys := CounterKeys(xs);
    LessIsStrictTotal(keys);
    SortPermutes(Less, keys);
    assert Elements(keys) == Elements(xs);
    ElementsCardinality(keys);
    Sort(Less, keys)
  }

  /** `analyze_adjectives(adjectives)`: the empty list gives the empty
      dictionary, modelled as `None`. */
  function Analyze(adjectives: seq<string>): (r: Option<Analysis>)
    ensures r.None? <==> adjectives == []
    ensures r.Some? ==> r.value.totalCount == |adjectives|
    ensures r.Some? ==> r.value.uniqueCount == |Elements(adjectives)|
    ensures r.Some? ==> r.value.uniqueCount <= r.value.totalCount
    ensures r.Some? ==> r.value.allAdjectives == adjectives
    ensures r.Some? ==> r.value.mostCommon == MostCommon(adjectives, TopCount)
    ensures r.Some? ==> |r.value.mostCommon| <= TopCount
    ensures r.Some? ==> TotalOf(r.value.mostCommon) <= r.value.totalCount
    ensures r.Some? ==> |r.value.uniqueAdjectives| == r.value.uniqueCount
    ensures r.Some? ==> forall w :: w in r.value.uniqueAdjectives <==> w in adjectives
    ensures r.Some? ==> SortedBy(Less, r.value.uniqueAdjectives)
  {
    if adjectives == [] then None
    else
      ElementsCardinality(adjectives);
      Some(Analysis(
        |adjectives|,
        |Elements(adjectives)|,
        MostCommon(adjectives, TopCount),
        adjectives,
        SortedUnique(adjectives)))
  }

  /** A worked example: for the adjectives `g t g` the analysis counts three,
      two of them distinct, ranks `g` (twice) before `t` (once), and lists the
      two in Python's string order. */
  lemma AnalysisExample(g: string, t: string)
    requires g != t
    ensures var a := Analyze([g, t, g]).value;
      && a.totalCount == 3
      && a.uniqueCount == 2
      && a.mostCommon == [(g, 2), (t, 1)]
      && a.uniqueAdjectives == if Less(g, t) then [g, t] else [t, g]
  {
    var xs := [g, t, g];
    assert Elements(xs) == {g, t};
    TwoElements(g, t);
    SortedUniqueOfTwo(xs, g, t);
    GtgCounts(g, t);
    MostCommonOfCounts(xs, g, t);
  }

  /** In `g t g`, `g` occurs twice and `t` once. */
  lemma GtgCounts(g: string, t: string)
    requires g != t
    ensures Occurrences([g, t, g], g) == 2 && Occurrences([g, t, g], t) == 1
  {
    assert multiset([g, t, g]) == multiset{g, g, t};
  }

  /** When one word occurs twice and another once, and no other word occurs,
      `most_common` lists the first before the second. */
  lemma MostCommonOfCounts(xs: seq<string>, g: string, t: string)
    requires g != t && Elements(xs) == {g, t}
    requires Occurrences(xs, g) == 2 && Occurrences(xs, t) == 1
    ensures MostCommon(xs, TopCount) == [(g, 2), (t, 1)]
  {
    TwoElements(g, t);
    assert g in Elements(xs) && t in Elements(xs);
    MostCommonOfTwo(xs, MostCommon(xs, TopCount), g, t);
  }

  /** With one word twice and another once, the ranking lists the first
      before the second. */
  lemma MostCommonOfTwo(xs: seq<string>, r: seq<(string, nat)>, g: string, t: string)
    requires g != t && g in xs && t in xs
    requires Occurrences(xs, g) == 2 && Occurrences(xs, t) == 1
    requires |r| == 2 && r[0].0 != r[1].0 && r[0].1 >= r[1].1
    requires forall i | 0 <= i < |r| :: r[i].0 in xs && r[i].1 == Occurrences(xs, r[i].0)
    requires forall w | w in xs :: w == g || w == t
    ensures r == [(g, 2), (t, 1)]
  {
    assert r[0].0 in xs && r[1].0 in xs;
  }

  /** Two distinct words, however often repeated, are listed in order. */
  lemma SortedUniqueOfTwo(xs: seq<string>, g: string, t: string)
    requires g != t && Elements(xs) == {g, t}
    ensures SortedUnique(xs) == if Less(g, t) then [g, t] else [t, g]
  {
    var u := SortedUnique(xs);
    TwoElements(g, t);
    assert forall w :: w in u <==> w in Elements(xs);
    TwoSorted(u, g, t);
  }

  /** The only ordered listing of two distinct words. */
  lemma TwoSorted(u: seq<string>, g: string, t: string)
    requires g != t && |u| == 2
    requires forall w :: w in u <==> w == g || w == t
    requires SortedBy(Less, u)
    ensures u == if Less(g, t) then [g, t] else [t, g]
  {
    assert u[0] in u && u[1] in u;
    assert Less(u[0], u[1]);
    LessIrreflexive(u[0]);
    if u[0] == g {
      assert u[1] == t;
    } else {
      assert u[0] == t;
      assert u[1] == g by {
        assert g in u;
      }
      LessIrreflexive(g);
      if Less(g, t) {
        LessTransitive(g, t, g);
      }
    }
    assert u == [u[0], u[1]];
  }

  lemma TwoElements(g: string, t: string)
    requires g != t
    ensures |{g, t}| == 2
  {
    assert {g, t} == {g} + {t};
  }
}

=== FILE: normalizer.dfy ===
/** The text normaliser `clean_text`: collapse whitespace runs, blank out
    characters outside `[\w\s.,;:!?-]`, strip both ends. */
module Normalizer {
  import opened Wrappers
  import opened Strings

  /** The punctuation the second substitution spares. */
  predicate IsKeptPunctuation(c: char) {
    c in ".,;:!?-"
  }

  /** The characters the class `[\w\s.,;:!?-]` matches. */
  predicate IsAllowed(c: char) {
    IsWordChar(c) || IsSpace(c) || IsKeptPunctuation(c)
  }

  /** An input character that survives cleaning as itself and is visible:
      allowed and not whitespace. */
  predicate IsKept(c: char) {
    IsAllowed(c) && !IsSpace(c)
  }

  /** A character a cleaned text may hold. */
  predicate IsCleanChar(c: char) {
    IsWordChar(c) || c == ' ' || IsKeptPunctuation(c)
  }

  /** Whitespace, if any, is the plain space. */
  predicate SpaceIsBlank(c: char) {
    IsSpace(c) ==> c == ' '
  }

  /** `re.sub(r'\s+', ' ', text)`: every maximal run of whitespace becomes a
      single space; everything else is kept in order. */
  function CollapseWhitespace(s: string): (r: string)
    ensures |r| <= |s|
    ensures r == [] <==> s == []
    ensures r != [] ==> r[0] == (if IsSpace(s[0]) then ' ' else s[0])
    ensures forall i | 0 <= i < |r| :: SpaceIsBlank(r[i])
    ensures forall i | 0 <= i < |r| - 1 :: !(IsSpace(r[i]) && IsSpace(r[i + 1]))
    ensures Filter(NotSpace, r) == Filter(NotSpace, s)
  {
    if s == [] then []
    else if IsSpace(s[0]) then
      var rest := TrimLeft(s);
      var r := " " + CollapseWhitespace(rest);
      assert r[1..] == CollapseWhitespace(rest);
      TrimLeftKeepsVisible(s);
      r
    else
      var r := [s[0]] + CollapseWhitespace(s[1..]);
      assert r[1..] == CollapseWhitespace(s[1..]);
      r
  }

  /** Collapsing keeps the words: `str.split()` of the result is that of the
      input, and the result ends in whitespace exactly when the input does.
      With the contract of `CollapseWhitespace` this fixes the result. */
  lemma {:induction false} CollapseWhitespaceWords(s: string)
    ensures SplitWs(CollapseWhitespace(s)) == SplitWs(s)
    ensures CollapseWhitespace(s) != [] ==>
      (IsSpace(CollapseWhitespace(s)[|CollapseWhitespace(s)| - 1]) <==> IsSpace(s[|s| - 1]))
  {
    CollapseKeepsRuns(NotSpace, s);
    CollapseKeepsLast(s);
  }

  /** Runs of characters that are never whitespace survive collapsing
      unchanged: collapsing only shortens the gaps between them, never
      closes one. */
  lemma {:induction false} CollapseKeepsRuns(p: char -> bool, s: string)
    requires forall c :: p(c) ==> !IsSpace(c)
    ensures Runs(p, CollapseWhitespace(s)) == Runs(p, s)
    decreases |s|
  {
    if s != [] {
      var r := CollapseWhitespace(s);
      if IsSpace(s[0]) {
        var rest := TrimLeft(s);
        CollapseKeepsRuns(p, rest);
        assert r == [' '] + CollapseWhitespace(rest);
        RunsSkip(p, [' '], CollapseWhitespace(rest));
        TrimLeftKeepsRuns(p, s);
      } else {
        CollapseKeepsRuns(p, s[1..]);
        assert r == [s[0]] + CollapseWhitespace(s[1..]);
        assert s == [s[0]] + s[1..];
        RunsCons(p, s[0], CollapseWhitespace(s[1..]), s[1..]);
      }
    }
  }

  lemma {:induction false} CollapseKeepsLast(s: string)
    ensures CollapseWhitespace(s) != [] ==>
      (IsSpace(CollapseWhitespace(s)[|CollapseWhitespace(s)| - 1]) <==> IsSpace(s[|s| - 1]))
    decreases |s|
  {
    if s != [] {
      var r := CollapseWhitespace(s);
      if IsSpace(s[0]) {
        var rest := TrimLeft(s);
        CollapseKeepsLast(rest);
        assert r == " " + CollapseWhitespace(rest);
        if rest != [] {
          assert rest[|rest| - 1] == s[|s| - 1];
        }
      } else {
        CollapseKeepsLast(s[1..]);
        assert r == [s[0]] + CollapseWhitespace(s[1..]);
      }
    }
  }

  /** `re.sub(r'[^\w\s.,;:!?-]', ' ', text)`: a length-preserving map that
      keeps allowed characters and turns every other one into a space. */
  function ReplaceDisallowed(s: string): (r: string)
    ensures |r| == |s|
    ensures forall i | 0 <= i < |s| :: IsAllowed(s[i]) ==> r[i] == s[i]
    ensures forall i | 0 <= i < |s| :: !IsAllowed(s[i]) ==> r[i] == ' '
  {
    if s == [] then []
    else [if IsAllowed(s[0]) then s[0] else ' '] + ReplaceDisallowed(s[1..])
  }

  /** After the substitution, the visible characters are exactly the kept
      characters of its input. */
  lemma {:induction false} ReplaceKeepsVisible(s: string)
    ensures Filter(NotSpace, ReplaceDisallowed(s)) == Filter(IsKept, s)
  {
    if s != [] {
      var r := ReplaceDisallowed(s);
      assert r[1..] == ReplaceDisallowed(s[1..]);
      ReplaceKeepsVisible(s[1..]);
    }
  }

  /** `clean_text(text)`: `None` and the empty string give the empty string;
      otherwise the three steps in order. */
  function CleanText(text: Option<string>): (r: string)
    ensures text == None || text == Some("") ==> r == ""
    ensures text.Some? ==> |r| <= |text.value|
    ensures forall i | 0 <= i < |r| :: IsCleanChar(r[i])
    ensures forall i | 0 <= i < |r| :: SpaceIsBlank(r[i])
    ensures r == [] || (!IsSpace(r[0]) && !IsSpace(r[|r| - 1]))
    ensures text.Some? ==> Filter(NotBlank, r) == Filter(IsKept, text.value)
  {
    if text.None? || text.value == "" then ""
    else
      var collapsed := CollapseWhitespace(text.value);
      var replaced := ReplaceDisallowed(collapsed);
      CleanTextProperties(text.value, collapsed, replaced);
      Strip(replaced)
  }

  /** The words of the cleaned text are the maximal runs of kept characters
      of the input: a character outside the class splits a word, and no two
      words are fused. */
  lemma CleanTextWords(t: string)
    ensures SplitWs(CleanText(Some(t))) == Runs(IsKept, t)
  {
    if t != [] {
      var collapsed := CollapseWhitespace(t);
      var replaced := ReplaceDisallowed(collapsed);
      assert CleanText(Some(t)) == Strip(replaced);
      StripKeepsRuns(NotSpace, replaced);
      ReplaceKeepsRuns(collapsed);
      CollapseKeepsRuns(IsKept, t);
    }
  }

  /** After the substitution the non-whitespace runs are exactly the runs of
      kept characters of its input. */
  lemma {:induction false} ReplaceKeepsRuns(s: string)
    ensures Runs(NotSpace, ReplaceDisallowed(s)) == Runs(IsKept, s)
  {
    var r := ReplaceDisallowed(s);
    forall i | 0 <= i < |r|
      ensures NotSpace(r[i]) == IsKept(s[i])
      ensures NotSpace(r[i]) ==> r[i] == s[i]
    {
    }
    RunsAgree(NotSpace, IsKept, r, s);
  }

  /** The only whitespace among the clean characters is the space. */
  lemma CleanCharIsNotOtherSpace(c: char)
    requires IsCleanChar(c)
    ensures SpaceIsBlank(c)
  {
  }

  lemma CleanTextProperties(t: string, collapsed: string, replaced: string)
    requires collapsed == CollapseWhitespace(t)
    requires replaced == ReplaceDisallowed(collapsed)
    ensures forall i | 0 <= i < |Strip(replaced)| :: IsCleanChar(Strip(replaced)[i])
    ensures forall i | 0 <= i < |Strip(replaced)| :: SpaceIsBlank(Strip(replaced)[i])
    ensures Filter(NotBlank, Strip(replaced)) == Filter(IsKept, t)
  {
    var r := Strip(replaced);
    assert forall i | 0 <= i < |replaced| :: IsCleanChar(replaced[i]) by {
      forall i | 0 <= i < |replaced| ensures IsCleanChar(replaced[i]) {
        assert SpaceIsBlank(collapsed[i]);
      }
    }
    StripKeepsCharClass(IsCleanChar, replaced);
    forall i | 0 <= i < |r|
      ensures SpaceIsBlank(r[i]) && NotBlank(r[i]) == NotSpace(r[i])
    {
      CleanCharIsNotOtherSpace(r[i]);
    }
    FilterAgree(NotBlank, NotSpace, r);
    ReplaceKeepsVisible(collapsed);
    FilterOfFilter(IsKept, NotSpace, collapsed);
    FilterOfFilter(IsKept, NotSpace, t);
  }

  /** Text already in the shape `clean_text` produces is left unchanged:
      clean characters only, no whitespace at either end and no two
      whitespace characters in a row. */
  lemma CleanTextFixesNormalText(t: string)
    requires forall i | 0 <= i < |t| :: IsCleanChar(t[i])
    requires forall i | 0 <= i < |t| - 1 :: !(IsSpace(t[i]) && IsSpace(t[i + 1]))
    requires t == [] || (!IsSpace(t[0]) && !IsSpace(t[|t| - 1]))
    ensures CleanText(Some(t)) == t
  {
    if t != [] {
      forall i | 0 <= i < |t|
        ensures SpaceIsBlank(t[i]) && IsAllowed(t[i])
      {
        CleanCharIsNotOtherSpace(t[i]);
      }
      CollapseFixesSingleSpaces(t);
      ReplaceFixesAllowed(t);
      StripFixesTrimmed(t);
    }
  }

  lemma {:induction false} CollapseFixesSingleSpaces(s: string)
    requires forall i | 0 <= i < |s| :: SpaceIsBlank(s[i])
    requires forall i | 0 <= i < |s| - 1 :: !(IsSpace(s[i]) && IsSpace(s[i + 1]))
    ensures CollapseWhitespace(s) == s
  {
    if s != [] {
      CollapseFixesSingleSpaces(s[1..]);
      if IsSpace(s[0]) {
        assert TrimLeft(s) == s[1..] by {
          assert TrimLeft(s) == TrimLeft(s[1..]);
        }
      }
      assert s == [s[0]] + s[1..];
    }
  }

  lemma ReplaceFixesAllowed(s: string)
    requires forall i | 0 <= i < |s| :: IsAllowed(s[i])
    ensures ReplaceDisallowed(s) == s
  {
  }

  lemma StripFixesTrimmed(s: string)
    requires s == [] || (!IsSpace(s[0]) && !IsSpace(s[|s| - 1]))
    ensures Strip(s) == s
  {
  }

  /** Whitespace runs, tabs and line breaks included, become one space:
      `"x\t\n y"` cleans to `"x y"`. */
  lemma CleanTextCollapsesRuns(x: char, y: char)
    requires IsWordChar(x) && IsWordChar(y)
    ensures CleanText(Some([x, '\t', '\n', ' ', y])) == [x, ' ', y]
  {
    var t := [x, '\t', '\n', ' ', y];
    CollapseRun(x, y);
    ReplaceFixesAllowed([x, ' ', y]);
    StripFixesTrimmed([x, ' ', y]);
    CleanTextSteps(t, [x, ' ', y], [x, ' ', y]);
  }

  /** `clean_text` of a non-empty text is the strip of the substitution of
      the collapse. */
  lemma CleanTextSteps(t: string, collapsed: string, replaced: string)
    requires t != []
    requires collapsed == CollapseWhitespace(t)
    requires replaced == ReplaceDisallowed(collapsed)
    ensures CleanText(Some(t)) == Strip(replaced)
  {
  }

  lemma CollapseRun(x: char, y: char)
    requires !IsSpace(x) && !IsSpace(y)
    ensures CollapseWhitespace([x, '\t', '\n', ' ', y]) == [x, ' ', y]
  {
    var s := [x, '\t', '\n', ' ', y];
    var run := s[1..];
    TrimRun(y);
    assert run == ['\t', '\n', ' ', y];
    assert CollapseWhitespace(run) == " " + CollapseWhitespace([y]);
    assert CollapseWhitespace([y]) == [y];
  }

  lemma TrimRun(y: char)
    requires !IsSpace(y)
    ensures TrimLeft(['\t', '\n', ' ', y]) == [y]
  {
    var ws := ['\t', '\n', ' '];
    assert forall i | 0 <= i < |ws| :: IsSpace(ws[i]);
    TrimLeftOfSpaces(ws, [y]);
    assert ws + [y] == ['\t', '\n', ' ', y];
  }

  /** Characters blanked out by the second substitution are not collapsed
      again: `"x@@y"` cleans to `"x  y"`, two spaces in a row. */
  lemma CleanTextKeepsNewRuns(x: char, y: char)
    requires IsWordChar(x) && IsWordChar(y)
    ensures CleanText(Some([x, '@', '@', y])) == [x, ' ', ' ', y]
  {
    var s := [x, '@', '@', y];
    CollapseFixesSingleSpaces(s);
    var r := ReplaceDisallowed(s);
    assert r == [x, ' ', ' ', y];
    StripFixesTrimmed(r);
    CleanTextSteps(s, s, r);
  }
}

=== FILE: pipeline.dfy ===
/** The control flow of `main`: the path prompt and its default, the early
    exits, the order of the stages, the output file name and the console
    summary. The file system, the PDF reader and the tagger are parameters. */
module Pipeline {
  import opened Wrappers
  import opened Strings
  import opened Sequences
  import Normalizer
  import opened Analyzer
  import opened Report

  /** The path used when the prompt is answered with nothing. */
  const DefaultPath: string := "data/Nepal.pdf"

  /** The number of `most_common` entries the console summary shows. */
  const ConsoleCount: nat := 10

  /** `input(...).strip()` followed by the fallback to the default path. */
  function ResolvePath(entered: string): (r: string)
    ensures r != []
    ensures !IsSpace(r[0]) && !IsSpace(r[|r| - 1])
    ensures Filter(NotSpace, entered) == [] ==> r == DefaultPath
    ensures Filter(NotSpace, entered) != [] ==> Filter(NotSpace, r) == Filter(NotSpace, entered)
    ensures Filter(NotSpace, entered) != [] ==> IsTrimmedSlice(entered, r)
  {
    var stripped := Strip(entered);
    StripEmptyIff(entered);
    if stripped == [] then
      DefaultPathIsVisible();
      DefaultPath
    else
      stripped
  }

  lemma DefaultPathIsVisible()
    ensures DefaultPath != []
    ensures !IsSpace(DefaultPath[0]) && !IsSpace(DefaultPath[|DefaultPath| - 1])
  {
  }

  /** `os.path.basename` on a POSIX path: everything after the last `/`. */
  function Basename(p: string): (r: string)
    ensures '/' !in r
    ensures |r| <= |p| && p[|p| - |r|..] == r
    ensures |r| < |p| ==> p[|p| - |r| - 1] == '/'
  {
    if p == [] || p[|p| - 1] == '/' then []
    else Basename(p[..|p| - 1]) + [p[|p| - 1]]
  }

  predicate NotDot(c: char) { c != '.' }

  /** `name.split('.')[0]`: everything before the first `.`. */
  function Stem(name: string): (r: string)
    ensures '.' !in r
    ensures r <= name
    ensures |r| < |name| ==> name[|r|] == '.'
  {
    var before := Span(NotDot, name).0;
    assert name[..|before|] == before;
    before
  }

  const OutputPrefix: string := "output/adjectives_"

  const OutputSuffix: string := ".txt"

  /** The report file `main` writes for the PDF at `path`: inside `output/`,
      named after the part of the file name before its first dot. */
  function OutputPath(path: string): (r: string)
    ensures OutputPrefix <= r
    ensures |r| >= |OutputPrefix| + |OutputSuffix|
    ensures r[|r| - |OutputSuffix|..] == OutputSuffix
    ensures var name := r[|OutputPrefix|..|r| - |OutputSuffix|];
      && '/' !in name && '.' !in name && name <= Basename(path)
      && (|name| < |Basename(path)| ==> Basename(path)[|name|] == '.')
  {
    var base := Basename(path);
    var name := Stem(base);
    ConcatParts(OutputPrefix, name, OutputSuffix);
    PrefixLacks('/', name, base);
    OutputPrefix + name + OutputSuffix
  }

  /** Where the three parts of a concatenation sit in it. */
  lemma ConcatParts(a: string, b: string, c: string)
    ensures var s := a + b + c;
      && a <= s
      && |s| == |a| + |b| + |c|
      && s[|a|..|s| - |c|] == b
      && s[|s| - |c|..] == c
  {
    var s := a + b + c;
    assert s[|a|..|s| - |c|] == b;
    assert s[|s| - |c|..] == c;
  }

  /** A character missing from a string is missing from its prefixes. */
  lemma PrefixLacks(ch: char, x: string, y: string)
    requires x <= y && ch !in y
    ensures ch !in x
  {
    assert forall k | 0 <= k < |x| :: x[k] == y[k];
  }

  /** The steps `main` takes after the file check, in the order it takes them. */
  datatype Stage = Extract | Clean | Tag | Analyse | Save

  const AllStages: seq<Stage> := [Extract, Clean, Tag, Analyse, Save]

  /** The stage lists of the early exits are beginnings of the full order
      that stop before saving. */
  lemma EarlyExitsArePrefixes()
    ensures [] <= AllStages && [Extract] <= AllStages && [Extract, Clean, Tag] <= AllStages
    ensures Save !in [Extract] && Save !in [Extract, Clean, Tag] && Save in AllStages
  {
    assert AllStages[..1] == [Extract];
    assert AllStages[..3] == [Extract, Clean, Tag];
    assert AllStages[4] == Save;
  }

  /** How a run of `main` ends. `Completed` carries what the console shows
      and the text of the report file. */
  datatype Outcome =
    | FileNotFound
    | ExtractionFailed
    | NoAdjectives
    | Completed(outputFile: string, report: string, total: nat, unique: nat, top: seq<(string, nat)>)

  /** A run: the path it used, the stages it went through, how it ended. */
  datatype Execution = Execution(path: string, stages: seq<Stage>, outcome: Outcome)

  /** A PDF extraction result Python treats as false: `None` or `""`. */
  predicate IsFalsy(text: Option<string>) {
    text.None? || text.value == ""
  }

  /** The adjectives a run tags out of a truthy extraction result. */
  function AdjectivesOf(raw: string, tagger: string -> seq<TaggedToken>): seq<string> {
    ExtractAdjectives(Normalizer.CleanText(Some(raw)), tagger)
  }

  /** `main()`, with the answer to the prompt, the existence test, the PDF
      reader and the tagger as inputs. */
  function Run(
    entered: string,
    fileExists: string -> bool,
    extract: string -> Option<string>,
    tagger: string -> seq<TaggedToken>
  ): (r: Execution)
    ensures r.path == ResolvePath(entered)
    ensures r.stages <= AllStages
    ensures r.outcome.FileNotFound? <==> !fileExists(r.path)
    ensures r.outcome.FileNotFound? ==> r.stages == []
    ensures r.outcome.ExtractionFailed? <==> fileExists(r.path) && IsFalsy(extract(r.path))
    ensures r.outcome.ExtractionFailed? ==> r.stages == [Extract]
    ensures r.outcome.NoAdjectives? <==>
      fileExists(r.path) && !IsFalsy(extract(r.path)) && AdjectivesOf(extract(r.path).value, tagger) == []
    ensures r.outcome.NoAdjectives? ==> r.stages == [Extract, Clean, Tag]
    ensures Save in r.stages <==> r.outcome.Completed?
    ensures r.outcome.Completed? ==>
      && r.stages == AllStages
      && r.outcome.outputFile == OutputPath(r.path)
  {
    var path := ResolvePath(entered);
    EarlyExitsArePrefixes();
    if !fileExists(path) then Execution(path, [], FileNotFound)
    else
      var raw := extract(path);
      if IsFalsy(raw) then Execution(path, [Extract], ExtractionFailed)
      else
        var adjectives := AdjectivesOf(raw.value, tagger);
        if adjectives == [] then Execution(path, [Extract, Clean, Tag], NoAdjectives)
        else
          var analysis := Analyze(adjectives).value;
          var saved := SaveResults(adjectives);
          Execution(path, AllStages, Completed(
            OutputPath(path),
            saved.text,
            analysis.totalCount,
            analysis.uniqueCount,
            Take(analysis.mostCommon, ConsoleCount)))
  }

  /** A successful run shows the totals of the adjectives it tagged and at
      most the first ten `most_common` entries, and saves the whole report. */
  lemma CompletedRun(
    entered: string,
    fileExists: string -> bool,
    extract: string -> Option<string>,
    tagger: string -> seq<TaggedToken>)
    requires Run(entered, fileExists, extract, tagger).outcome.Completed?
    ensures var r := Run(entered, fileExists, extract, tagger);
      var adjectives := AdjectivesOf(extract(r.path).value, tagger);
      && adjectives != []
      && r.outcome.total == |adjectives|
      && r.outcome.unique == |Elements(adjectives)|
      && r.outcome.unique <= r.outcome.total
      && |r.outcome.top| == (if |Elements(adjectives)| < ConsoleCount then |Elements(adjectives)| else ConsoleCount)
      && r.outcome.top == MostCommon(adjectives, ConsoleCount)
      && r.outcome.top <= MostCommon(adjectives, TopCount)
      && SaveResults(adjectives) == Written(r.outcome.report)
      && Header() <= r.outcome.report
  {
    var r := Run(entered, fileExists, extract, tagger);
    var adjectives := AdjectivesOf(extract(r.path).value, tagger);
    MostCommonPrefix(adjectives, ConsoleCount, TopCount);
  }

  /** Lower-casing does not create spaces or line breaks. */
  lemma LowerKeepsToken(w: string)
    requires IsToken(w)
    ensures IsToken(Lower(w))
  {
  }

  /** When the tagger never yields a word with a space or a line break in it,
      the saved report reads back as the totals and the list the console
      summary was cut from. */
  lemma ConsoleAgreesWithReport(
    entered: string,
    fileExists: string -> bool,
    extract: string -> Option<string>,
    tagger: string -> seq<TaggedToken>)
    requires Run(entered, fileExists, extract, tagger).outcome.Completed?
    requires forall text: string, k | 0 <= k < |tagger(text)| :: IsToken(tagger(text)[k].word)
    ensures var o := Run(entered, fileExists, extract, tagger).outcome;
      var summary := ParseReportSummary(o.report);
      && summary.Some?
      && summary.value.totalCount == o.total
      && summary.value.uniqueCount == o.unique
      && o.top == Take(summary.value.mostCommon, ConsoleCount)
  {
    var r := Run(entered, fileExists, extract, tagger);
    var raw := extract(r.path).value;
    var adjectives := AdjectivesOf(raw, tagger);
    CompletedRun(entered, fileExists, extract, tagger);
    TaggedWordsAreTokens(raw, tagger);
    ReportSummaryRoundTrip(adjectives);
    var a := Analyze(adjectives).value;
    assert r.outcome.top == Take(a.mostCommon, ConsoleCount);
  }

  /** A tagger that yields no word with a space or a line break gives
      adjectives without them. */
  lemma TaggedWordsAreTokens(raw: string, tagger: string -> seq<TaggedToken>)
    requires forall text: string, k | 0 <= k < |tagger(text)| :: IsToken(tagger(text)[k].word)
    ensures var adjectives := AdjectivesOf(raw, tagger);
      forall i | 0 <= i < |adjectives| :: IsToken(adjectives[i])
  {
    var text := Normalizer.CleanText(Some(raw));
    var adjectives := AdjectivesOf(raw, tagger);
    if text != "" {
      var tagged := tagger(text);
      FilterAdjectivesWords(tagged);
      forall i | 0 <= i < |adjectives|
        ensures IsToken(adjectives[i])
      {
        assert adjectives[i] in AdjectiveWords(tagged);
        var j :| 0 <= j < |tagged| && IsAdjectiveTag(tagged[j].tag) && adjectives[i] == Lower(tagged[j].word);
        LowerKeepsToken(tagged[j].word);
      }
    }
  }

  /** The report for `dir/stem.ext` is `output/adjectives_stem.txt`, whatever
      the directory and however many dots the extension holds. */
  lemma OutputPathOf(dir: string, stem: string, ext: string)
    requires '/' !in stem && '.' !in stem && '/' !in ext
    ensures OutputPath(dir + "/" + stem + "." + ext) == OutputPrefix + stem + OutputSuffix
  {
    var name := stem + "." + ext;
    assert dir + "/" + stem + "." + ext == dir + "/" + name;
    assert '/' !in name by {
      assert forall k | 0 <= k < |name| :: name[k] == (if k < |stem| then stem[k] else if k == |stem| then '.' else ext[k - |stem| - 1]);
    }
    BasenameAfterSlash(dir, name);
    assert name == stem + ("." + ext);
    SpanIsUnique(NotDot, stem, "." + ext);
  }

  /** The base name of `dir/name` is `name` when `name` has no slash. */
  lemma {:induction false} BasenameAfterSlash(dir: string, name: string)
    requires '/' !in name
    ensures Basename(dir + "/" + name) == name
  {
    var p := dir + "/" + name;
    if name != [] {
      var init := name[..|name| - 1];
      assert p[..|p| - 1] == dir + "/" + init;
      assert '/' !in init by {
        assert forall k | 0 <= k < |init| :: init[k] == name[k];
      }
      BasenameAfterSlash(dir, init);
      assert init + [name[|name| - 1]] == name;
    }
  }
}

=== FILE: report.dfy ===
/** The text `save_results` writes, as a pure function of the adjective
    list, and readers that recover what it encodes. */
module Report {
  import opened Wrappers
  import opened Strings
  import opened Sequences
  import opened Analyzer

  const Banner: string := Repeat('=', 60)
  const Rule: string := Repeat('-', 40)

  /** The width `{word:20}` pads to. */
  const ColumnWidth: nat := 20

  /** The number of words per grid row. */
  const GridColumns: nat := 5

  /** The three lines written before the analysis is first read. */
  function Header(): string {
    Banner + "\n" + "ADJECTIVES EXTRACTION RESULTS\n" + Banner + "\n\n"
  }

  const TopHeading: string := "Top 20 Most Frequent Adjectives:\n" + Rule + "\n"

  /** `f"{word:20} : {count:3} times\n"`. */
  function TopLine(word: string, count: nat): string {
    AlignLeft(word, ColumnWidth) + " : " + AlignRight(NatToString(count), 3) + " times\n"
  }

  function TopLines(entries: seq<(string, nat)>): string {
    if entries == [] then ""
    else TopLine(entries[0].0, entries[0].1) + TopLines(entries[1..])
  }

  /** Word `i` (counting from 1) of a grid: bare and ending the row when `i`
      is a multiple of 5, otherwise padded to the column width. */
  function Cell(word: string, i: nat): (r: string)
    ensures |word| <= |r|
    ensures r[..|word|] == word
    ensures i % GridColumns == 0 ==> r[|word|..] == "\n"
    ensures i % GridColumns != 0 ==> |r| == (if |word| < ColumnWidth then ColumnWidth else |word|)
    ensures i % GridColumns != 0 ==> forall k | |word| <= k < |r| :: r[k] == ' '
  {
    if i % GridColumns == 0 then word + "\n" else AlignLeft(word, ColumnWidth)
  }

  /** The grid of `words`, the first of which is word number `i`. */
  function GridFrom(words: seq<string>, i: nat): string
    decreases |words|
  {
    if words == [] then "" else Cell(words[0], i) + GridFrom(words[1..], i + 1)
  }

  /** The `enumerate(..., 1)` loops of `save_results`. */
  function Grid(words: seq<string>): string {
    GridFrom(words, 1)
  }

  function AllSection(words: seq<string>): string {
    "\n" + Banner + "\n" + "ALL ADJECTIVES (in order of appearance):\n" + Banner + "\n" + Grid(words)
  }

  function UniqueSection(words: seq<string>): string {
    "\n\n" + Banner + "\n" + "UNIQUE ADJECTIVES (alphabetical order):\n" + Banner + "\n" + Grid(words)
  }

  /** What the output file holds after `save_results`: the whole report, or,
      for an empty list, the header written before `analysis['total_count']`
      raises `KeyError` on the empty dictionary. */
  datatype SaveOutcome = Written(text: string) | KeyErrorAfter(partial: string)

  /** `save_results(adjectives)`, without the file system. */
  function SaveResults(adjectives: seq<string>): (r: SaveOutcome)
    ensures r.KeyErrorAfter? <==> adjectives == []
    ensures r.KeyErrorAfter? ==> r.partial == Header()
    ensures r.Written? ==> Header() <= r.text
  {
    match Analyze(adjectives)
    case None => KeyErrorAfter(Header())
    case Some(a) =>
      var body := Body(a);
      assert (Header() + body)[..|Header()|] == Header();
      Written(Header() + body)
  }

  /** Everything `save_results` writes after the header: the two totals,
      the top-20 section and the two grids. */
  function Body(a: Analysis): string {
    "Total adjectives found: " + NatToString(a.totalCount)
    + ("\nUnique adjectives: " + NatToString(a.uniqueCount)
    + ("\n\n" + TopHeading
    + (TopLines(a.mostCommon) + (AllSection(a.allAdjectives) + UniqueSection(a.uniqueAdjectives)))))
  }

  /** A word the tokenizer can produce: no space and no line break. */
  predicate IsToken(w: string) {
    forall i | 0 <= i < |w| :: w[i] != ' ' && w[i] != '\n'
  }

  // ---------------------------------------------------------------------
  // Reading the top-20 section back.

  /** Reads `<word><spaces>: <spaces><digits> times\n` off the front of `s`. */
  function ParseTopLine(s: string): (r: Option<((string, nat), string)>)
    ensures r.Some? ==> |r.value.1| < |s|
  {
    var (word, afterWord) := Span(NotBlank, s);
    var (_, beforeColon) := Span(IsBlank, afterWord);
    match DropPrefix(": ", beforeColon)
    case None => None
    case Some(afterColon) =>
      var (_, count) := Span(IsBlank, afterColon);
      var (digits, afterDigits) := Span(IsDigit, count);
      if digits == [] then None
      else
        match DropPrefix(" times\n", afterDigits)
        case None => None
        case Some(rest) => Some(((word, ParseNat(digits)), rest))
  }

  /** Reads top-20 lines until the input ends or a line is empty. */
  function ParseTopLines(s: string): Option<(seq<(string, nat)>, string)>
    decreases |s|
  {
    if s == [] || s[0] == '\n' then Some(([], s))
    else
      match ParseTopLine(s)
      case None => None
      case Some((entry, rest)) =>
        match ParseTopLines(rest)
        case None => None
        case Some((entries, tail)) => Some(([entry] + entries, tail))
  }

  /** Reads `<caption><digits>` off the front of `s`. */
  function ParseCount(caption: string, s: string): Option<(nat, string)> {
    match DropPrefix(caption, s)
    case None => None
    case Some(t) =>
      var (digits, rest) := Span(IsDigit, t);
      if digits == [] then None else Some((ParseNat(digits), rest))
  }

  /** The totals and the top-20 list a report states. */
  datatype ReportSummary = ReportSummary(totalCount: nat, uniqueCount: nat, mostCommon: seq<(string, nat)>)

  /** Reads the header, both totals and the top-20 section of a report. */
  function ParseReportSummary(text: string): Option<ReportSummary> {
    match DropPrefix(Header(), text)
    case None => None
    case Some(t1) =>
      match ParseCount("Total adjectives found: ", t1)
      case None => None
      case Some((total, t2)) =>
        match ParseCount("\nUnique adjectives: ", t2)
        case None => None
        case Some((unique, t3)) =>
          match DropPrefix("\n\n" + TopHeading, t3)
          case None => None
          case Some(t4) =>
            match ParseTopLines(t4)
            case None => None
            case Some((entries, _)) => Some(ReportSummary(total, unique, entries))
  }

  // ---------------------------------------------------------------------
  // Round trips.

  /** The spaces `AlignLeft` adds after `s`. */
  function PadAfter(s: string, width: nat): nat {
    if |s| < width then width - |s| else 0
  }

  lemma AlignLeftShape(s: string, width: nat)
    ensures AlignLeft(s, width) == s + Repeat(' ', PadAfter(s, width))
  {
    if |s| >= width {
      assert s + Repeat(' ', 0) == s;
    }
  }

  lemma AlignRightShape(s: string, width: nat)
    ensures AlignRight(s, width) == Repeat(' ', PadAfter(s, width)) + s
  {
    if |s| >= width {
      assert Repeat(' ', 0) + s == s;
    }
  }

  lemma RepeatSnoc(c: char, n: nat)
    ensures Repeat(c, n) + [c] == Repeat(c, n + 1)
  {
  }

  /** A top-20 line, cut where its reader cuts it. */
  lemma TopLineShape(word: string, count: nat, rest: string)
    ensures var digits := NatToString(count);
      TopLine(word, count) + rest
      == word + (Repeat(' ', PadAfter(word, ColumnWidth) + 1)
         + (": " + (Repeat(' ', PadAfter(digits, 3)) + (digits + (" times\n" + rest)))))
  {
    var digits := NatToString(count);
    var left := Repeat(' ', PadAfter(word, ColumnWidth));
    var right := Repeat(' ', PadAfter(digits, 3));
    AlignLeftShape(word, ColumnWidth);
    AlignRightShape(digits, 3);
    RepeatSnoc(' ', PadAfter(word, ColumnWidth));
    assert " : " == [' '] + ": ";
    calc {
      TopLine(word, count) + rest;
      (word + left) + " : " + (right + digits) + " times\n" + rest;
      word + ((left + [' ']) + (": " + (right + (digits + (" times\n" + rest)))));
    }
  }

  /** A top-20 line reads back as the word and count it was written from. */
  lemma TopLineRoundTrip(word: string, count: nat, rest: string)
    requires IsToken(word)
    ensures ParseTopLine(TopLine(word, count) + rest) == Some(((word, count), rest))
  {
    var digits := NatToString(count);
    var afterDigits := " times\n" + rest;
    var afterColon := Repeat(' ', PadAfter(digits, 3)) + (digits + afterDigits);
    var beforeColon := ": " + afterColon;
    var afterWord := Repeat(' ', PadAfter(word, ColumnWidth) + 1) + beforeColon;
    TopLineShape(word, count, rest);
    SpanIsUnique(NotBlank, word, afterWord);
    SpanIsUnique(IsBlank, Repeat(' ', PadAfter(word, ColumnWidth) + 1), beforeColon);
    DropPrefixOfConcat(": ", afterColon);
    SpanIsUnique(IsBlank, Repeat(' ', PadAfter(digits, 3)), digits + afterDigits);
    SpanIsUnique(IsDigit, digits, afterDigits);
    DropPrefixOfConcat(" times\n", rest);
    ParseNatToString(count);
  }

  /** A top-20 line never starts with a line break, so the reader does not
      take it for the end of the section. */
  lemma TopLineStart(word: string, count: nat, rest: string)
    requires IsToken(word)
    ensures TopLine(word, count) + rest != []
    ensures (TopLine(word, count) + rest)[0] != '\n'
  {
    TopLineShape(word, count, rest);
  }

  /** The top-20 section reads back as the list it was written from. */
  lemma {:induction false} TopLinesRoundTrip(entries: seq<(string, nat)>, tail: string)
    requires forall i | 0 <= i < |entries| :: IsToken(entries[i].0)
    requires tail == [] || tail[0] == '\n'
    ensures ParseTopLines(TopLines(entries) + tail) == Some((entries, tail))
  {
    if entries == [] {
      assert TopLines(entries) + tail == tail;
    } else {
      var (w, c) := entries[0];
      var rest := TopLines(entries[1..]) + tail;
      var s := TopLine(w, c) + rest;
      assert TopLines(entries) + tail == s;
      TopLineStart(w, c, rest);
      TopLineRoundTrip(w, c, rest);
      TopLinesRoundTrip(entries[1..], tail);
      ParseTopLinesStep(s, (w, c), rest, entries[1..], tail);
      assert [entries[0]] + entries[1..] == entries;
    }
  }

  /** One line read, then the rest of the list. */
  lemma ParseTopLinesStep(s: string, entry: (string, nat), rest: string,
                          entries: seq<(string, nat)>, tail: string)
    requires s != [] && s[0] != '\n'
    requires ParseTopLine(s) == Some((entry, rest))
    requires ParseTopLines(rest) == Some((entries, tail))
    ensures ParseTopLines(s) == Some(([entry] + entries, tail))
  {
  }

  lemma ParseCountRoundTrip(caption: string, n: nat, rest: string)
    requires rest == [] || !IsDigit(rest[0])
    ensures ParseCount(caption, caption + NatToString(n) + rest) == Some((n, rest))
  {
    assert caption + NatToString(n) + rest == caption + (NatToString(n) + rest);
    DropPrefixOfConcat(caption, NatToString(n) + rest);
    SpanIsUnique(IsDigit, NatToString(n), rest);
    ParseNatToString(n);
  }

  /** The words of the top-20 list are adjectives of the input. */
  lemma TopWordsAreTokens(adjectives: seq<string>)
    requires forall i | 0 <= i < |adjectives| :: IsToken(adjectives[i])
    ensures var mc := MostCommon(adjectives, TopCount);
      forall i | 0 <= i < |mc| :: IsToken(mc[i].0)
  {
    var mc := MostCommon(adjectives, TopCount);
    forall i | 0 <= i < |mc|
      ensures IsToken(mc[i].0)
    {
      var k :| 0 <= k < |adjectives| && adjectives[k] == mc[i].0;
    }
  }

  /** The totals and the top-20 list of a written report read back as the
      analysis of the adjectives it was written from. */
  lemma ReportSummaryRoundTrip(adjectives: seq<string>)
    requires adjectives != []
    requires forall i | 0 <= i < |adjectives| :: IsToken(adjectives[i])
    ensures SaveResults(adjectives).Written?
    ensures ParseReportSummary(SaveResults(adjectives).text)
      == Some(ReportSummary(|adjectives|, |Elements(adjectives)|, MostCommon(adjectives, TopCount)))
  {
    var a := Analyze(adjectives).value;
    var mc := a.mostCommon;
    var rest := AllSection(a.allAdjectives) + UniqueSection(a.uniqueAdjectives);
    var t4 := TopLines(mc) + rest;
    var t3 := "\n\n" + TopHeading + t4;
    var t2 := "\nUnique adjectives: " + NatToString(a.uniqueCount) + t3;
    var t1 := "Total adjectives found: " + NatToString(a.totalCount) + t2;
    assert SaveResults(adjectives).text == Header() + t1;
    DropPrefixOfConcat(Header(), t1);
    ParseCountRoundTrip("Total adjectives found: ", a.totalCount, t2);
    ParseCountRoundTrip("\nUnique adjectives: ", a.uniqueCount, t3);
    DropPrefixOfConcat("\n\n" + TopHeading, t4);
    TopWordsAreTokens(adjectives);
    assert rest[0] == '\n';
    TopLinesRoundTrip(mc, rest);
  }

  // ---------------------------------------------------------------------
  // The grid.

  /** The number of line breaks in `s`. */
  function NewlineCount(s: string): nat {
    if s == [] then 0 else (if s[0] == '\n' then 1 else 0) + NewlineCount(s[1..])
  }

  lemma {:induction false} NewlineCountAppend(a: string, b: string)
    ensures NewlineCount(a + b) == NewlineCount(a) + NewlineCount(b)
  {
    if a == [] {
      assert a + b == b;
    } else {
      assert (a + b)[0] == a[0];
      assert (a + b)[1..] == a[1..] + b;
      NewlineCountAppend(a[1..], b);
    }
  }

  lemma {:induction false} NewlineCountNone(s: string)
    requires '\n' !in s
    ensures NewlineCount(s) == 0
  {
    if s != [] {
      assert '\n' !in s[1..] by {
        assert forall k | 0 <= k < |s[1..]| :: s[1..][k] == s[k + 1];
      }
      NewlineCountNone(s[1..]);
    }
  }

  /** A cell holds a line break exactly when it ends a row. */
  lemma CellNewlines(w: string, i: nat)
    requires '\n' !in w
    ensures NewlineCount(Cell(w, i)) == if i % GridColumns == 0 then 1 else 0
  {
    var cell := Cell(w, i);
    var pad := cell[|w|..];
    assert cell == w + pad;
    NewlineCountAppend(w, pad);
    NewlineCountNone(w);
    if i % GridColumns != 0 {
      assert '\n' !in pad;
      NewlineCountNone(pad);
    } else {
      assert pad == "\n";
    }
  }

  lemma RowEnds(i: nat)
    requires i >= 1
    ensures (i - 1) / 5 + (if i % 5 == 0 then 1 else 0) == i / 5
  {
  }

  /** A row ends after every fifth word, and nowhere else. */
  lemma {:induction false} GridFromNewlines(words: seq<string>, i: nat)
    requires i >= 1
    requires forall k | 0 <= k < |words| :: '\n' !in words[k]
    ensures NewlineCount(GridFrom(words, i)) == (i - 1 + |words|) / 5 - (i - 1) / 5
    decreases |words|
  {
    if words != [] {
      var cell := Cell(words[0], i);
      var later := GridFrom(words[1..], i + 1);
      assert GridFrom(words, i) == cell + later;
      assert forall k | 0 <= k < |words[1..]| :: words[1..][k] == words[k + 1];
      GridFromNewlines(words[1..], i + 1);
      NewlineCountAppend(cell, later);
      CellNewlines(words[0], i);
      var c, l := NewlineCount(cell), NewlineCount(later);
      RowStep(i, |words|, c, l);
      assert NewlineCount(GridFrom(words, i)) == c + l;
    }
  }

  lemma RowStep(i: nat, n: nat, c: nat, l: int)
    requires i >= 1 && n >= 1
    requires c == if i % 5 == 0 then 1 else 0
    requires l == (i + n - 1) / 5 - i / 5
    ensures c + l == (i - 1 + n) / 5 - (i - 1) / 5
  {
    RowEnds(i);
  }

  /** The number of line breaks a grid emits is `n // 5`: a last partial row
      is not terminated. */
  lemma GridNewlines(words: seq<string>)
    requires forall k | 0 <= k < |words| :: '\n' !in words[k]
    ensures NewlineCount(Grid(words)) == |words| / 5
  {
    GridFromNewlines(words, 1);
  }

  predicate IsSeparator(c: char) { c == ' ' || c == '\n' }

  predicate NotSeparator(c: char) { !IsSeparator(c) }

  /** The words of `s`, splitting at spaces and line breaks. */
  function Tokens(s: string): seq<string>
    decreases |s|
  {
    var (_, t) := Span(IsSeparator, s);
    if t == [] then []
    else
      var (word, rest) := Span(NotSeparator, t);
      assert word != [];
      [word] + Tokens(rest)
  }

  /** A word the grid keeps apart from its neighbours: non-empty, free of
      separators, and shorter than the column. */
  predicate IsGridWord(w: string) {
    0 < |w| < ColumnWidth && IsToken(w)
  }

  /** Separators in front of a string do not change its words. */
  lemma TokensAfterSeparators(sep: string, s: string)
    requires forall k | 0 <= k < |sep| :: IsSeparator(sep[k])
    requires s == [] || NotSeparator(s[0])
    ensures Tokens(sep + s) == Tokens(s)
  {
    SpanIsUnique(IsSeparator, sep, s);
    SpanIsUnique(IsSeparator, [], s);
    assert [] + s == s;
  }

  /** A word followed by a separator is the first word. */
  lemma TokensOfWord(w: string, t: string)
    requires w != []
    requires forall k | 0 <= k < |w| :: NotSeparator(w[k])
    requires t != [] && IsSeparator(t[0])
    ensures Tokens(w + t) == [w] + Tokens(t)
  {
    SpanIsUnique(IsSeparator, [], w + t);
    assert [] + (w + t) == w + t;
    SpanIsUnique(NotSeparator, w, t);
  }

  /** A grid is its first word, the separators its cell pads with, and the
      grid of the remaining words. */
  lemma GridFromSplit(words: seq<string>, i: nat)
    requires words != [] && IsGridWord(words[0])
    ensures var w := words[0];
      var sep := Cell(w, i)[|w|..];
      && GridFrom(words, i) == w + (sep + GridFrom(words[1..], i + 1))
      && sep != []
      && forall k | 0 <= k < |sep| :: IsSeparator(sep[k])
  {
    var w := words[0];
    var cell := Cell(w, i);
    var later := GridFrom(words[1..], i + 1);
    assert cell == cell[..|w|] + cell[|w|..];
    assert GridFrom(words, i) == cell + later;
  }

  /** Splitting a grid of short words at spaces and line breaks gives back
      the words, in order. */
  lemma {:induction false} GridFromTokens(words: seq<string>, i: nat)
    requires forall k | 0 <= k < |words| :: IsGridWord(words[k])
    ensures Tokens(GridFrom(words, i)) == words
    ensures words != [] ==> GridFrom(words, i)[0] == words[0][0]
    decreases |words|
  {
    if words == [] {
      SpanIsUnique(IsSeparator, [], []);
    } else {
      var w := words[0];
      var sep := Cell(w, i)[|w|..];
      var later := GridFrom(words[1..], i + 1);
      GridFromSplit(words, i);
      GridFromTokens(words[1..], i + 1);
      TokensOfWord(w, sep + later);
      TokensAfterSeparators(sep, later);
      assert [w] + words[1..] == words;
    }
  }

  lemma GridTokens(words: seq<string>)
    requires forall k | 0 <= k < |words| :: IsGridWord(words[k])
    ensures Tokens(Grid(words)) == words
  {
    GridFromTokens(words, 1);
  }
}

=== FILE: sequences.dfy ===
/** Sequence vocabulary: distinctness, Python's `s[:n]`, the set of a
    sequence, and an insertion sort for a strict total order. */
module Sequences {

  predicate Distinct<T(==)>(s: seq<T>) {
    forall i, j | 0 <= i < j < |s| :: s[i] != s[j]
  }

  /** Python's `set(s)`. */
  function Elements<T>(s: seq<T>): set<T> {
    set x | x in s
  }

  /** Python's `s[:n]`: the first `n` elements, or all of them when there
      are fewer. */
  function Take<T>(s: seq<T>, n: nat): (r: seq<T>)
    ensures |r| == if n < |s| then n else |s|
    ensures r <= s
  {
    if n < |s| then s[..n] else s
  }

  /** Each element comes strictly before every later one. */
  ghost predicate SortedBy<T>(lt: (T, T) -> bool, s: seq<T>) {
    forall i, j | 0 <= i < j < |s| :: lt(s[i], s[j])
  }

  /** `lt` is irreflexive, transitive and total on the elements of `s`. */
  ghost predicate StrictTotalOn<T>(lt: (T, T) -> bool, s: seq<T>) {
    && (forall a | a in s :: !lt(a, a))
    && (forall a, b, c | a in s && b in s && c in s :: lt(a, b) && lt(b, c) ==> lt(a, c))
    && (forall a, b | a in s && b in s && a != b :: lt(a, b) || lt(b, a))
  }

  /** An order that is strict and total on the elements of `big` is so on
      those of any `small` whose elements all occur in `big`. */
  lemma StrictTotalOnSubset<T>(lt: (T, T) -> bool, small: seq<T>, big: seq<T>)
    requires StrictTotalOn(lt, big)
    requires forall a | a in small :: a in big
    ensures StrictTotalOn(lt, small)
  {
  }

  /** A sequence has exactly as many elements as its set when no element
      repeats, and never fewer. */
  lemma {:induction false} ElementsCardinality<T>(s: seq<T>)
    ensures |Elements(s)| <= |s|
    ensures Distinct(s) ==> |Elements(s)| == |s|
  {
    if s != [] {
      var init := s[..|s| - 1];
      var last := s[|s| - 1];
      ElementsCardinality(init);
      assert Elements(s) == Elements(init) + {last};
      if Distinct(s) {
        assert Distinct(init);
        assert last !in Elements(init);
      }
    }
  }

  /** Places `x` in front of the first element it comes before. */
  function Insert<T(==)>(lt: (T, T) -> bool, x: T, s: seq<T>): (r: seq<T>)
    requires StrictTotalOn(lt, s + [x])
    requires x !in s
    requires SortedBy(lt, s)
    ensures multiset(r) == multiset(s) + multiset{x}
    ensures SortedBy(lt, r)
  {
    if s == [] then [x]
    else if lt(x, s[0]) then [x] + s
    else
      assert s == [s[0]] + s[1..];
      assert StrictTotalOn(lt, s[1..] + [x]) by {
        StrictTotalOnSubset(lt, s[1..] + [x], s + [x]);
      }
      var rest := Insert(lt, x, s[1..]);
      assert forall i | 0 <= i < |rest| :: lt(s[0], rest[i]) by {
        forall i | 0 <= i < |rest| ensures lt(s[0], rest[i]) {
          assert rest[i] in multiset(rest);
          assert rest[i] == x || rest[i] in s[1..];
        }
      }
      [s[0]] + rest
  }

  /** Insertion sort: the elements of `s`, each once, in `lt` order. */
  function Sort<T(==)>(lt: (T, T) -> bool, s: seq<T>): (r: seq<T>)
    requires Distinct(s)
    requires StrictTotalOn(lt, s)
    ensures multiset(r) == multiset(s)
    ensures SortedBy(lt, r)
  {
    if s == [] then []
    else
      var init := s[..|s| - 1];
      var last := s[|s| - 1];
      assert s == init + [last];
      StrictTotalOnSubset(lt, init, s);
      var sorted := Sort(lt, init);
      assert last !in sorted by {
        assert last !in multiset(init);
      }
      assert forall a | a in sorted + [last] :: a in s by {
        forall a | a in sorted + [last] ensures a in s {
          if a in sorted {
            assert a in multiset(sorted);
          }
        }
      }
      StrictTotalOnSubset(lt, sorted + [last], s);
      Insert(lt, last, sorted)
  }

  /** The sorted sequence is a permutation of a duplicate-free input, so it
      has the same length and members and no duplicates either. */
  lemma SortPermutes<T>(lt: (T, T) -> bool, s: seq<T>)
    requires Distinct(s)
    requires StrictTotalOn(lt, s)
    ensures |Sort(lt, s)| == |s|
    ensures forall x :: x in Sort(lt, s) <==> x in s
    ensures Distinct(Sort(lt, s))
  {
    var r := Sort(lt, s);
    assert |r| == |multiset(r)| == |multiset(s)| == |s|;
    SameMembers(r, s);
    SortedIsDistinct(lt, r, s);
  }

  lemma SameMembers<T>(r: seq<T>, s: seq<T>)
    requires multiset(r) == multiset(s)
    ensures forall x :: x in r <==> x in s
    ensures forall x | x in r :: x in s
  {
    forall x
      ensures x in r <==> x in s
    {
      assert x in r <==> x in multiset(r);
      assert x in s <==> x in multiset(s);
    }
  }

  /** Sorted by an order that is irreflexive on its elements, a sequence
      repeats nothing. */
  lemma SortedIsDistinct<T>(lt: (T, T) -> bool, r: seq<T>, s: seq<T>)
    requires StrictTotalOn(lt, s)
    requires forall x | x in r :: x in s
    requires SortedBy(lt, r)
    ensures Distinct(r)
  {
    forall i, j | 0 <= i < j < |r|
      ensures r[i] != r[j]
    {
      assert lt(r[i], r[j]);
      assert r[i] in s;
      assert !lt(r[i], r[i]);
    }
  }
}

=== FILE: strings.dfy ===
/** Character classes and string helpers shared by the whole pipeline:
    Python's whitespace set, the ASCII part of `\w`, `str.lower`, the
    alignment of `format`, decimal rendering of integers, and the
    code-point ordering used by `sorted` on strings. */
module Strings {
  import opened Wrappers

  /** Python's `str.isspace`, which is also what `\s` in a `str` pattern and
      `str.strip()` without arguments use. */
  predicate IsSpace(c: char) {
    var n := c as int;
    (9 <= n <= 13) || (0x1C <= n <= 0x1F) || n == 0x20 || n == 0x85 || n == 0xA0
    || n == 0x1680 || (0x2000 <= n <= 0x200A) || n == 0x2028 || n == 0x2029
    || n == 0x202F || n == 0x205F || n == 0x3000
  }

  predicate NotSpace(c: char) { !IsSpace(c) }

  /** The plain space character `' '`, the only whitespace a cleaned text keeps. */
  predicate IsBlank(c: char) { c == ' ' }

  predicate NotBlank(c: char) { c != ' ' }

  predicate IsDigit(c: char) { '0' <= c <= '9' }

  predicate IsUpper(c: char) { 'A' <= c <= 'Z' }

  /** The ASCII part of `\w`: letters, digits and the underscore. */
  predicate IsWordChar(c: char) {
    'a' <= c <= 'z' || IsUpper(c) || IsDigit(c) || c == '_'
  }

  /** `n` copies of `c`, as Python's `c * n`. */
  function Repeat(c: char, n: nat): (r: string)
    ensures |r| == n
    ensures forall i | 0 <= i < n :: r[i] == c
  {
    if n == 0 then [] else [c] + Repeat(c, n - 1)
  }

  /** `format(s, "<width>")` on a string: left-aligned, filled with spaces on
      the right, never truncated. */
  function AlignLeft(s: string, width: nat): (r: string)
    ensures |r| == if |s| < width then width else |s|
    ensures r[..|s|] == s
    ensures forall i | |s| <= i < |r| :: r[i] == ' '
  {
    if |s| < width then s + Repeat(' ', width - |s|) else s
  }

  /** `format(n, "<width>")` on a number: right-aligned, filled with spaces on
      the left, never truncated. */
  function AlignRight(s: string, width: nat): (r: string)
    ensures |r| == if |s| < width then width else |s|
    ensures r[|r| - |s|..] == s
    ensures forall i | 0 <= i < |r| - |s| :: r[i] == ' '
  {
    if |s| < width then Repeat(' ', width - |s|) + s else s
  }

  function DigitChar(d: nat): (c: char)
    requires d < 10
    ensures IsDigit(c)
  {
    ('0' as int + d) as char
  }

  function DigitValue(c: char): nat
    requires IsDigit(c)
  {
    c as int - '0' as int
  }

  /** `str(n)` for a non-negative integer: its decimal digits, with no
      leading zero except for `0` itself. */
  function NatToString(n: nat): (r: string)
    ensures |r| >= 1
    ensures forall i | 0 <= i < |r| :: IsDigit(r[i])
    ensures (r[0] == '0') == (n == 0)
    ensures r[0] == '0' ==> |r| == 1
  {
    if n < 10 then [DigitChar(n)] else NatToString(n / 10) + [DigitChar(n % 10)]
  }

  /** Reads a string of decimal digits back as a number. */
  function ParseNat(s: string): nat
    requires forall i | 0 <= i < |s| :: IsDigit(s[i])
  {
    if s == [] then 0 else 10 * ParseNat(s[..|s| - 1]) + DigitValue(s[|s| - 1])
  }

  /** Decimal rendering and reading are inverse. */
  lemma {:induction false} ParseNatToString(n: nat)
    ensures ParseNat(NatToString(n)) == n
  {
    if n >= 10 {
      var s := NatToString(n);
      assert s[..|s| - 1] == NatToString(n / 10);
      ParseNatToString(n / 10);
    }
  }

  /** `str.lower` on one character, restricted to ASCII. */
  function LowerChar(c: char): (r: char)
    ensures !IsUpper(r)
    ensures IsUpper(c) ==> r as int == c as int + 32
    ensures !IsUpper(c) ==> r == c
  {
    if IsUpper(c) then (c as int + 32) as char else c
  }

  predicate IsLowerCase(s: string) {
    forall i | 0 <= i < |s| :: !IsUpper(s[i])
  }

  /** `str.lower`, restricted to ASCII: a character-by-character map. */
  function Lower(s: string): (r: string)
    ensures |r| == |s|
    ensures forall i | 0 <= i < |s| :: r[i] == LowerChar(s[i])
    ensures IsLowerCase(r)
  {
    if s == [] then [] else [LowerChar(s[0])] + Lower(s[1..])
  }

  /** Python's `a < b` on strings: lexicographic by code point, a proper
      prefix comes first. */
  predicate Less(a: string, b: string) {
    if a == [] then b != []
    else if b == [] then false
    else if a[0] != b[0] then a[0] < b[0]
    else Less(a[1..], b[1..])
  }

  lemma {:induction false} LessIrreflexive(a: string)
    ensures !Less(a, a)
  {
    if a != [] {
      LessIrreflexive(a[1..]);
    }
  }

  lemma {:induction false} LessTransitive(a: string, b: string, c: string)
    requires Less(a, b) && Less(b, c)
    ensures Less(a, c)
  {
    if a != [] && b != [] && c != [] && a[0] == b[0] && b[0] == c[0] {
      LessTransitive(a[1..], b[1..], c[1..]);
    }
  }

  lemma {:induction false} LessTotal(a: string, b: string)
    requires a != b
    ensures Less(a, b) || Less(b, a)
  {
    if a != [] && b != [] && a[0] == b[0] {
      assert a == [a[0]] + a[1..] && b == [b[0]] + b[1..];
      LessTotal(a[1..], b[1..]);
    }
  }

  /** Splits `s` into its longest prefix whose characters satisfy `p` and the
      rest, which is empty or starts with a character that does not. */
  function Span(p: char -> bool, s: string): (r: (string, string))
    ensures r.0 + r.1 == s
    ensures forall i | 0 <= i < |r.0| :: p(r.0[i])
    ensures r.1 == [] || !p(r.1[0])
  {
    if s != [] && p(s[0]) then
      var rest := Span(p, s[1..]);
      var r := ([s[0]] + rest.0, rest.1);
      assert r.0 + r.1 == [s[0]] + (rest.0 + rest.1);
      assert s == [s[0]] + s[1..];
      assert forall i | 1 <= i < |r.0| :: r.0[i] == rest.0[i - 1];
      r
    else ([], s)
  }

  /** The split `Span` makes is the only one with its two properties. */
  lemma SpanIsUnique(p: char -> bool, a: string, b: string)
    requires forall i | 0 <= i < |a| :: p(a[i])
    requires b == [] || !p(b[0])
    ensures Span(p, a + b) == (a, b)
  {
    var s := a + b;
    var r := Span(p, s);
    assert r.0 == s[..|r.0|] && a == s[..|a|];
  }

  /** Removes `prefix` from the front of `s`, if `s` starts with it. */
  function DropPrefix(prefix: string, s: string): (r: Option<string>)
    ensures r.Some? <==> prefix <= s
    ensures r.Some? ==> s == prefix + r.value
  {
    if prefix <= s then Some(s[|prefix|..]) else None
  }

  lemma DropPrefixOfConcat(prefix: string, rest: string)
    ensures DropPrefix(prefix, prefix + rest) == Some(rest)
  {
    assert prefix <= prefix + rest;
    assert (prefix + rest)[|prefix|..] == rest;
  }

  /** The characters of `s` that satisfy `p`, in order. */
  function Filter(p: char -> bool, s: string): (r: string)
    ensures |r| <= |s|
    ensures forall i | 0 <= i < |r| :: p(r[i])
  {
    if s == [] then [] else (if p(s[0]) then [s[0]] else []) + Filter(p, s[1..])
  }

  lemma {:induction false} FilterAppend(p: char -> bool, a: string, b: string)
    ensures Filter(p, a + b) == Filter(p, a) + Filter(p, b)
  {
    if a == [] {
      assert a + b == b;
    } else {
      assert (a + b)[0] == a[0];
      assert (a + b)[1..] == a[1..] + b;
      FilterAppend(p, a[1..], b);
      var head := if p(a[0]) then [a[0]] else [];
      assert Filter(p, a + b) == head + (Filter(p, a[1..]) + Filter(p, b));
      assert head + (Filter(p, a[1..]) + Filter(p, b)) == (head + Filter(p, a[1..])) + Filter(p, b);
    }
  }

  /** Filtering by two tests that agree on every character of `s` gives the
      same characters. */
  lemma {:induction false} FilterAgree(p: char -> bool, q: char -> bool, s: string)
    requires forall i | 0 <= i < |s| :: p(s[i]) == q(s[i])
    ensures Filter(p, s) == Filter(q, s)
  {
    if s != [] {
      FilterAgree(p, q, s[1..]);
    }
  }

  /** Filtering first by a weaker test does not change a filter by a
      stronger one. */
  lemma {:induction false} FilterOfFilter(p: char -> bool, q: char -> bool, s: string)
    requires forall c :: p(c) ==> q(c)
    ensures Filter(p, Filter(q, s)) == Filter(p, s)
  {
    if s != [] {
      FilterOfFilter(p, q, s[1..]);
      var head := if q(s[0]) then [s[0]] else [];
      FilterAppend(p, head, Filter(q, s[1..]));
    }
  }

  /** A string that starts with a `p` character keeps something. */
  lemma FilterKeepsHead(p: char -> bool, s: string)
    requires s != [] && p(s[0])
    ensures Filter(p, s) != []
  {
  }

  /** A string all of whose characters fail `p` filters to nothing. */
  lemma {:induction false} FilterNone(p: char -> bool, s: string)
    requires forall i | 0 <= i < |s| :: !p(s[i])
    ensures Filter(p, s) == []
  {
    if s != [] {
      FilterNone(p, s[1..]);
    }
  }

  /** `str.lstrip()`: drops the leading whitespace, nothing else. */
  function TrimLeft(s: string): (r: string)
    ensures |r| <= |s|
    ensures r == s[|s| - |r|..]
    ensures forall i | 0 <= i < |s| - |r| :: IsSpace(s[i])
    ensures r == [] || !IsSpace(r[0])
  {
    if s != [] && IsSpace(s[0]) then TrimLeft(s[1..]) else s
  }

  /** Removing leading whitespace from whitespace followed by a string that
      does not start with whitespace leaves exactly that string. */
  lemma {:induction false} TrimLeftOfSpaces(ws: string, t: string)
    requires forall i | 0 <= i < |ws| :: IsSpace(ws[i])
    requires t == [] || !IsSpace(t[0])
    ensures TrimLeft(ws + t) == t
  {
    if ws == [] {
      assert ws + t == t;
    } else {
      assert (ws + t)[1..] == ws[1..] + t;
      TrimLeftOfSpaces(ws[1..], t);
    }
  }

  /** `str.rstrip()`: drops the trailing whitespace, nothing else. */
  function TrimRight(s: string): (r: string)
    ensures |r| <= |s|
    ensures r == s[..|r|]
    ensures forall i | |r| <= i < |s| :: IsSpace(s[i])
    ensures r == [] || !IsSpace(r[|r| - 1])
  {
    if s != [] && IsSpace(s[|s| - 1]) then TrimRight(s[..|s| - 1]) else s
  }

  predicate AllSpace(s: string) {
    forall i | 0 <= i < |s| :: IsSpace(s[i])
  }

  /** `r` sits in `s` at offset `k` with nothing but whitespace around it. */
  predicate IsSliceAt(s: string, r: string, k: nat) {
    && k + |r| <= |s|
    && r == s[k..k + |r|]
    && AllSpace(s[..k])
    && AllSpace(s[k + |r|..])
  }

  /** `r` is `s` with whitespace removed at the ends only. */
  ghost predicate IsTrimmedSlice(s: string, r: string) {
    exists k: nat :: IsSliceAt(s, r, k)
  }

  /** `str.strip()`: a slice of `s` with no whitespace at either end that
      keeps every non-whitespace character of `s`. */
  function Strip(s: string): (r: string)
    ensures |r| <= |s|
    ensures r == [] || (!IsSpace(r[0]) && !IsSpace(r[|r| - 1]))
    ensures IsTrimmedSlice(s, r)
    ensures Filter(NotSpace, r) == Filter(NotSpace, s)
  {
    StripKeepsVisible(s);
    StripIsSlice(s);
    TrimRight(TrimLeft(s))
  }

  /** `strip()` gives the empty string exactly for all-whitespace input. */
  lemma StripEmptyIff(s: string)
    ensures Strip(s) == [] <==> Filter(NotSpace, s) == []
  {
    if Strip(s) != [] {
      FilterKeepsHead(NotSpace, Strip(s));
    }
  }

  lemma StripIsSlice(s: string)
    ensures IsTrimmedSlice(s, TrimRight(TrimLeft(s)))
  {
    var left := TrimLeft(s);
    var r := TrimRight(left);
    var k := |s| - |left|;
    AllSpaceOfHead(s, k);
    AllSpaceOfTail(left, |r|);
    PrefixOfSuffix(s, k, left, r);
    assert IsSliceAt(s, r, k);
  }

  lemma AllSpaceOfHead(t: string, n: nat)
    requires n <= |t|
    requires forall i | 0 <= i < n :: IsSpace(t[i])
    ensures AllSpace(t[..n])
  {
    forall j | 0 <= j < n
      ensures IsSpace(t[..n][j])
    {
      assert t[..n][j] == t[j];
    }
  }

  lemma AllSpaceOfTail(t: string, n: nat)
    requires n <= |t|
    requires forall i | n <= i < |t| :: IsSpace(t[i])
    ensures AllSpace(t[n..])
  {
    forall j | 0 <= j < |t| - n
      ensures IsSpace(t[n..][j])
    {
      assert t[n..][j] == t[n + j];
    }
  }

  /** A prefix `r` of the suffix of `s` from `k` on, with only whitespace
      after it there, is the slice of `s` at `k` with only whitespace after
      it. */
  lemma PrefixOfSuffix(s: string, k: nat, left: string, r: string)
    requires k + |left| == |s| && left == s[k..]
    requires |r| <= |left| && r == left[..|r|]
    requires AllSpace(left[|r|..])
    ensures k + |r| <= |s| && r == s[k..k + |r|] && AllSpace(s[k + |r|..])
  {
    assert r == s[k..k + |r|];
    assert s[k + |r|..] == left[|r|..];
  }

  lemma StripKeepsVisible(s: string)
    ensures Filter(NotSpace, TrimRight(TrimLeft(s))) == Filter(NotSpace, s)
  {
    TrimLeftKeepsVisible(s);
    TrimRightKeepsVisible(TrimLeft(s));
  }

  lemma {:induction false} TrimLeftKeepsVisible(s: string)
    ensures Filter(NotSpace, TrimLeft(s)) == Filter(NotSpace, s)
  {
    if s != [] && IsSpace(s[0]) {
      TrimLeftKeepsVisible(s[1..]);
    }
  }

  lemma {:induction false} TrimRightKeepsVisible(s: string)
    ensures Filter(NotSpace, TrimRight(s)) == Filter(NotSpace, s)
  {
    if s != [] && IsSpace(s[|s| - 1]) {
      var init := s[..|s| - 1];
      assert s == init + [s[|s| - 1]];
      SpacesAfter(init, [s[|s| - 1]]);
      TrimRightKeepsVisible(init);
    }
  }

  /** Every character of `Strip(s)` is a character of `s`: whatever holds of
      all characters of `s` holds of all characters of the result. */
  lemma StripKeepsCharClass(p: char -> bool, s: string)
    requires forall i | 0 <= i < |s| :: p(s[i])
    ensures forall i | 0 <= i < |Strip(s)| :: p(Strip(s)[i])
  {
    var left := TrimLeft(s);
    var r := TrimRight(left);
    forall i | 0 <= i < |r|
      ensures p(r[i])
    {
      assert r[i] == left[i] == s[|s| - |left| + i];
    }
  }

  /** Whitespace after a string does not change its non-whitespace
      characters. */
  lemma SpacesAfter(a: string, b: string)
    requires forall i | 0 <= i < |b| :: IsSpace(b[i])
    ensures Filter(NotSpace, a + b) == Filter(NotSpace, a)
  {
    FilterAppend(NotSpace, a, b);
    FilterNone(NotSpace, b);
  }

  /** The maximal runs of consecutive characters of `s` that satisfy `p`,
      in order: each run is non-empty and made of `p` characters only. */
  function Runs(p: char -> bool, s: string): (r: seq<string>)
    ensures s != [] && p(s[0]) ==> r != []
    ensures forall i | 0 <= i < |r| :: r[i] != []
    ensures forall i, j | 0 <= i < |r| && 0 <= j < |r[i]| :: p(r[i][j])
  {
    if s == [] then []
    else
      var rest := Runs(p, s[1..]);
      if !p(s[0]) then rest
      else if |s| > 1 && p(s[1]) then
        RunsExtend(p, s[0], rest);
        [[s[0]] + rest[0]] + rest[1..]
      else [[s[0]]] + rest
  }

  /** Putting a `p` character in front of the first run keeps every run
      non-empty and made of `p` characters. */
  lemma RunsExtend(p: char -> bool, c: char, rest: seq<string>)
    requires p(c) && rest != []
    requires forall i | 0 <= i < |rest| :: rest[i] != []
    requires forall i, j | 0 <= i < |rest| && 0 <= j < |rest[i]| :: p(rest[i][j])
    ensures var r := [[c] + rest[0]] + rest[1..];
      && (forall i | 0 <= i < |r| :: r[i] != [])
      && (forall i, j | 0 <= i < |r| && 0 <= j < |r[i]| :: p(r[i][j]))
  {
    var r := [[c] + rest[0]] + rest[1..];
    assert forall i | 1 <= i < |r| :: r[i] == rest[i];
    assert forall j | 1 <= j < |r[0]| :: r[0][j] == rest[0][j - 1];
  }

  /** `str.split()` with no argument: the maximal runs of non-whitespace
      characters. */
  function SplitWs(s: string): seq<string> {
    Runs(NotSpace, s)
  }

  /** Strings that agree on which positions hold `p` and `q` characters, and
      agree on those characters, have the same runs. */
  lemma {:induction false} RunsAgree(p: char -> bool, q: char -> bool, x: string, y: string)
    requires |x| == |y|
    requires forall i | 0 <= i < |x| :: p(x[i]) == q(y[i])
    requires forall i | 0 <= i < |x| :: p(x[i]) ==> x[i] == y[i]
    ensures Runs(p, x) == Runs(q, y)
  {
    if x != [] {
      RunsAgree(p, q, x[1..], y[1..]);
    }
  }

  /** Characters outside `p` in front of a string do not change its runs. */
  lemma {:induction false} RunsSkip(p: char -> bool, x: string, y: string)
    requires forall i | 0 <= i < |x| :: !p(x[i])
    ensures Runs(p, x + y) == Runs(p, y)
  {
    if x == [] {
      assert x + y == y;
    } else {
      assert (x + y)[1..] == x[1..] + y;
      RunsSkip(p, x[1..], y);
    }
  }

  /** Characters outside `p` after a string do not change its runs. */
  lemma {:induction false} RunsDropTail(p: char -> bool, x: string, y: string)
    requires forall i | 0 <= i < |y| :: !p(y[i])
    ensures Runs(p, x + y) == Runs(p, x)
  {
    if x == [] {
      assert x + y == y;
      RunsSkip(p, y, []);
      assert y + [] == y;
    } else {
      assert (x + y)[1..] == x[1..] + y;
      RunsDropTail(p, x[1..], y);
    }
  }

  /** Two strings with the same runs and the same answer to "does it start
      with a `p` character" keep the same runs under one more character in
      front. */
  lemma RunsCons(p: char -> bool, c: char, x: string, y: string)
    requires Runs(p, x) == Runs(p, y)
    requires (x != [] && p(x[0])) == (y != [] && p(y[0]))
    ensures Runs(p, [c] + x) == Runs(p, [c] + y)
  {
    assert ([c] + x)[1..] == x;
    assert ([c] + y)[1..] == y;
  }

  /** Stripping removes no run of characters that are not whitespace. */
  lemma StripKeepsRuns(p: char -> bool, s: string)
    requires forall c :: p(c) ==> !IsSpace(c)
    ensures Runs(p, Strip(s)) == Runs(p, s)
  {
    TrimLeftKeepsRuns(p, s);
    TrimRightKeepsRuns(p, TrimLeft(s));
  }

  lemma TrimLeftKeepsRuns(p: char -> bool, s: string)
    requires forall c :: p(c) ==> !IsSpace(c)
    ensures Runs(p, TrimLeft(s)) == Runs(p, s)
  {
    var left := TrimLeft(s);
    var front := s[..|s| - |left|];
    assert s == front + left;
    assert forall i | 0 <= i < |front| :: IsSpace(front[i]);
    RunsSkip(p, front, left);
  }

  lemma TrimRightKeepsRuns(p: char -> bool, s: string)
    requires forall c :: p(c) ==> !IsSpace(c)
    ensures Runs(p, TrimRight(s)) == Runs(p, s)
  {
    var r := TrimRight(s);
    var back := s[|r|..];
    assert s == r + back;
    assert forall i | 0 <= i < |back| :: IsSpace(back[i]);
    RunsDropTail(p, r, back);
  }
}

=== FILE: wrappers.dfy ===
/** The optional value used wherever the Python code returns `None` or an
    empty dictionary instead of a result. */
module Wrappers {

  datatype Option<+T> = None | Some(value: T)
}
